=== FILE: README.md ===
# Sales aggregation and time-series pipeline, modelled in Dafny

This project models the transformation core of a retail forecasting pipeline.
It turns a table of purchase transactions into a wide table of daily series,
one per market, category and vendor plus a grand total, for the discount price
and for the full price:

1. **Aggregation** (`data_preprocessing.py`).
   - `get_target_vals` sums each day's transactions by market, category and
     vendor, over fixed allow-lists of 38, 46 and 43 ids (`bound_dict`), and
     adds a grand-total row.
   - `rename_target_columns` makes the measure names hold the sums.
   - `sort_columns` puts the key columns first.
   - `get_aggregated_data` does this for every distinct day, in order of first
     appearance.
2. **Continuity** (`create_time_series.py`).
   - `copy_missing_days` fills every day between the table's first and last
     row that has no rows, using the rows of the day 365 days earlier.
3. **Expansion**.
   - `get_target_days` reads the `"(start,end)"` ranges of the forecast order.
   - `add_nans` zero-fills the null sums, appends `n_target_values`
     placeholder rows per target day with unset sums, and fills gaps again.
4. **Pivot**.
   - `create_column_names` lists one column per (measure, key).
   - `dataset_to_timeseries` selects each column's rows and joins the series
     on the day.

Modules, one per file:

| Module | Contents |
|---|---|
| `Wrappers` | `Option` and `Result` |
| `Sequences` | first-appearance `unique()`, null dropping, sums |
| `Sorting` | stable insertion sort; Python's string order |
| `Records` | transactions, keys, aggregate rows, allow-lists, the 128-key day layout |
| `Columns` | `sort_columns` |
| `Aggregation` | grouping, the per-day target values, the long table |
| `Continuity` | `copy_missing_days` |
| `Expansion` | `get_target_days`, `add_nans` |
| `Naming` | column labels and their parser |
| `Pivot` | `create_column_names`, `dataset_to_timeseries` |

How the source's types are represented:
- **Days** are integer day ordinals.
- **Money and quantities** are integers.
- **Key columns.** A row's three key columns are a tagged `Key`:
  - `Market(id)`, `Category(id)` or `Vendor(id)` when exactly one column is set;
  - `Total` when all three are NaN.
- **Null cells** are `Option.None`.
- **Errors.** Where the source raises, the model returns `Result.Failure`,
  except where "## Left out" names a case it does not model.
- **Date parsing.** `strptime` is the parameter `parse`, a function from text
  to an optional day ordinal.

Two edge cases follow the code as written:
- An inverted forecast range (end before start) gives no days and raises no
  error.
- A missing day whose year-ago day is also empty stays missing. Nothing is
  recorded for it.

## Model

| member | source | states |
|---|---|---|
| Sequences.Unique | data_preprocessing.py:215 | `unique()`: each value once, exactly the input's values, never longer than the input |
| Sequences.UniqueFirstAppearanceOrder | data_preprocessing.py:215 | `unique()` lists values in the order of their first appearance in the input |
| Sequences.UniqueOfDistinct | create_time_series.py:117-128 | a dict built from keys that are already distinct keeps every key in insertion order |
| Sequences.Values | create_time_series.py:145-147 | dropping NaN keeps exactly the set values |
| Sequences.ValuesOrder | create_time_series.py:145-147 | dropping NaN from a duplicate-free sequence keeps the remaining values in their original order |
| Sequences.ValuesDistinct | create_time_series.py:145-147 | dropping NaN from a `unique()` result leaves no duplicate id |
| Sorting.InsertionSort | data_preprocessing.py:122 | the output is ordered under any total preorder and is a permutation of the input |
| Sorting.StrLeIsTotalPreorder | data_preprocessing.py:122 | Python's code-point string comparison is total and transitive, so `sorted` is well defined on column names |
| Sorting.StrSortedUnique | data_preprocessing.py:122 | two lists of strings that are both ordered and have the same elements are equal, because string order is antisymmetric |
| Records.KeyLayoutBlocks | data_preprocessing.py:144-165 | one day's rows list the market block, the category block, the vendor block and then the total, each block in allow-list order |
| Records.KeyLayoutDistinct | data_preprocessing.py:144-165 | with duplicate-free allow-lists, no key appears twice in a day's layout |
| Records.DayKeysShape | data_preprocessing.py:11-14 | the allow-lists hold 38, 46 and 43 ids, so a day has 128 rows (the default `n_target_values`, create_time_series.py:64), the last being the total |
| Columns.SortedNames | data_preprocessing.py:122 | `sorted(df.columns)`: ordered by Python's string order and a permutation of the columns |
| Columns.SortedNamesUnique | data_preprocessing.py:122 | any ordered permutation of the columns equals the sorted list, so `sorted` has exactly one possible answer |
| Columns.RemoveFirst | data_preprocessing.py:123-126 | `list.remove`: succeeds exactly when the name is present, removes one copy, and otherwise raises naming it |
| Columns.RemoveEach | data_preprocessing.py:123-126 | the four removals succeed exactly when the names are a sub-multiset of the columns; a failure names the first name whose removal fails, that is the first position where the names so far are no longer a sub-multiset of the columns; the rest stays sorted |
| Columns.SortColumns | data_preprocessing.py:112-128 | succeeds exactly when all four key columns are present, and a table without `category_id` fails naming it (the first removal); the result is a permutation of the input with `create_date, category_id, market_id, vendor_id` first and the remaining columns in sorted order |
| Columns.SortColumnsNeedsKeyColumns | data_preprocessing.py:123-126 | success holds exactly when every key column occurs in the table |
| Aggregation.SelectCounts | data_preprocessing.py:145-150 | a key's group holds each transaction of that key as often as it occurs, and no other transaction |
| Aggregation.GroupBy | data_preprocessing.py:145-150 | the one-pass group-by holds an entry for exactly the ids that occur, with count and sums equal to those of the transactions carrying that id |
| Aggregation.Block | data_preprocessing.py:151-153 | the `.loc` reindex gives one row per allow-listed id, in allow-list order, holding that id's statistics, or unset statistics when no transaction has the id |
| Aggregation.TargetValsFor | data_preprocessing.py:143-167 | the row at each layout position is that key's statistics; the last row is the total over every transaction |
| Aggregation.TargetVals | data_preprocessing.py:131-167 | with the configured allow-lists, a day yields 128 rows whose statistics are the matching transactions' count and sums |
| Aggregation.OnDay | data_preprocessing.py:216 | `df[cd == date]` keeps exactly the transactions of that day |
| Aggregation.OnDayCounts | data_preprocessing.py:216 | the day's mask keeps each transaction of that day as often as it occurs, and no other transaction |
| Aggregation.RenamedDescribes | data_preprocessing.py:170-196 | after the rename and the column drop, a row's `full_price` and `full_discount_price` are the sums over its key's transactions of the day, and null when there are none |
| Aggregation.DayBatch | data_preprocessing.py:215-218 | one day contributes 128 rows that describe the day's transactions key by key |
| Aggregation.Batches | data_preprocessing.py:215-218 | concatenating the days' batches puts day `j`, key `i` at row `128*j + i` |
| Aggregation.AggregatedData | data_preprocessing.py:198-222 | an empty transaction table fails: the loop builds a column-less frame and `sort_columns` raises on removing `category_id`; otherwise the long table has 128 rows per distinct day, in first-appearance order of the days; each row's sums are those of exactly the matching transactions of its day |
| Continuity.SortByDate | create_time_series.py:36 | `sort_values(by="create_date")`: ordered by day and a permutation of the rows |
| Continuity.Copies | create_time_series.py:26-33 | a row is copied exactly when its day plus 365 is missing, and the copy lands on that missing day |
| Continuity.CopiesCounts | create_time_series.py:26-33 | a row on a missing day occurs among the copies as often as its year-ago original occurs in the input; rows on other days do not occur |
| Continuity.SortedBoundsAreExtremes | create_time_series.py:18-23 | on a table sorted by day, the first and last rows bound every row's day, so every uncovered day between two rows' days is among the missing days |
| Continuity.CopyMissingDays | create_time_series.py:5-38 | an empty table raises; otherwise the output is sorted by day and holds exactly the input rows plus the year-ago copies, with multiplicity |
| Continuity.InFilled | create_time_series.py:35-36 | a row is in the filled table exactly when it was in the input or is a year-ago copy |
| Continuity.FilledDays | create_time_series.py:18-36 | a day between the first and last row has rows afterwards exactly when it had rows before or the day 365 days earlier had rows |
| Continuity.YearShift | create_time_series.py:26-35 | on a missing day the filled table holds exactly the rows of the day a year earlier, keys and sums unchanged, each as often as it occurred a year earlier |
| Continuity.OtherDaysUnchanged | create_time_series.py:31-35 | rows on days that were not missing keep their multiplicity |
| Continuity.Replacement | create_time_series.py:31 | `full_df[create_date.isin(dates_replace)]` keeps exactly the rows dated 365 days before a missing day |
| Continuity.ReplacementCounts | create_time_series.py:31 | the mask keeps each row dated 365 days before a missing day as often as it occurs, and no other row |
| Continuity.RelabelInOrder | create_time_series.py:32-33 | each row ends on the day reached by following the missing days in visiting order, each visit moving every row then dated a year earlier |
| Continuity.LoopRelabelsTwice | create_time_series.py:26-33 | when two missing days lie 365 days apart, the loop as written can move one row twice: from day 0 to 730, where the one-shot copy puts it on 365 |
| Continuity.LoopAgreesWithoutYearApartGaps | create_time_series.py:26-33 | when no two missing days lie 365 days apart, the loop as written produces exactly the one-shot copies |
| Expansion.Split | create_time_series.py:54 | `str.split`: one part more than separator occurrences, no part holds the separator, and joining gives back the text |
| Expansion.SplitOneComma | create_time_series.py:54 | a text with a single comma splits into exactly the texts before and after it |
| Expansion.ParseEntry | create_time_series.py:54-55 | an entry without exactly one comma does not unpack; with one comma, the entry succeeds exactly when both the text before it without its first character and the text after it without its last character parse, giving those two days; otherwise it fails naming the start text when that does not parse, and the end text only when the start text parses |
| Expansion.DayRange | create_time_series.py:56-60 | `range(delta.days + 1)` gives every day from start to end, ascending, and none for an inverted range |
| Expansion.TargetDays | create_time_series.py:40-62 | succeeds exactly when every entry parses; a day is listed exactly when some entry's range covers it |
| Expansion.DayRangeCounts | create_time_series.py:56-60 | one range lists each of its days exactly once |
| Expansion.RangesDaysCounts | create_time_series.py:53-60 | the days of a list of entries hold each day once per entry whose range covers it |
| Expansion.TargetDaysCounts | create_time_series.py:40-62 | when every entry parses, each day occurs once per distinct entry whose range covers it, so overlapping ranges repeat the day |
| Expansion.RangesDaysLayout | create_time_series.py:53-60 | the days of a list of entries form one block per entry, in entry order; entry `k`'s block starts after the ranges of the entries before it and counts up from its start day for the length of its range |
| Expansion.OffsetStep | create_time_series.py:53-60 | each entry's block ends exactly where the next entry's block begins |
| Expansion.TargetDaysLayout | create_time_series.py:40-62 | when every entry parses, the target days are one ascending block per distinct entry, in order of the entries' first appearance, and nothing else; this order decides which day each placeholder block gets through `np.repeat` |
| Expansion.RepeatBlocks | create_time_series.py:92 | `np.repeat(days, n)`: position `i` holds day `i / n`, and the days present are exactly the target days when `n > 0` |
| Expansion.ZeroFilled | create_time_series.py:82-83 | `fillna(0)` sets every null sum to 0 and keeps the key, the day and every set sum |
| Expansion.Placeholders | create_time_series.py:90-92 | the first `n * len(days)` rows keep their keys, take the repeated target days, and have both sums unset |
| Expansion.Expanded | create_time_series.py:82-95 | the appended table is the zero-filled input followed by the placeholders |
| Expansion.AddNans | create_time_series.py:64-101 | fails on an unreadable order, on too few rows to relabel and on an empty table; otherwise the result is sorted and holds the expanded table plus its year-ago copies |
| Expansion.AddNansKeepsHistory | create_time_series.py:82-100 | when the order parses, the table is non-empty and has enough rows, the call succeeds and every input row survives with its null sums replaced by zero |
| Expansion.AddNansCoversTargetDays | create_time_series.py:86-100 | under the same conditions and with `n > 0`, the call succeeds and every target day gets placeholder rows with unset sums |
| Expansion.UnsetOnlyOnTargetDays | create_time_series.py:90-100 | under the same conditions the call succeeds, and unset sums in its result occur only on target days or on the day a year after one |
| Naming.NatTextValue | create_time_series.py:176 | the decimal digits printed for an id read back as that id |
| Naming.NatText | create_time_series.py:176 | the decimal text of a natural number is all digits, one digit exactly for numbers below ten, and starts with `0` only for zero |
| Naming.NatTextCanonical | create_time_series.py:176 | a digit string without a leading zero is the decimal text of the number it denotes, so the printed text is the only canonical one |
| Naming.IdText | create_time_series.py:176 | `format(x, '.0f')` prints `nan` for NaN, the canonical decimal digits for a non-negative id, and a minus sign followed by canonical digits (never `-0`) for a negative one |
| Naming.ColumnNameRoundTrip | create_time_series.py:176-179 | every label `mar-cat-ven-measure` parses back to the column it was made from, negative ids included |
| Naming.ColumnNameInjective | create_time_series.py:176-179 | distinct columns get distinct labels |
| Pivot.CreateColumnNames | create_time_series.py:103-130 | the dict of column keys holds no key twice |
| Pivot.CreateColumnNamesMembers | create_time_series.py:117-128 | a column is listed exactly when it is a key's column for some measure and its id is in the list of its dimension; the total's column is listed for both measures |
| Pivot.CreateColumnNamesLayout | create_time_series.py:117-130 | with duplicate-free id lists there are `2 * (markets + categories + vendors + 1)` columns: the discount-price block lists the markets, the categories, the vendors and the total in that order, then the same keys follow for the full price |
| Pivot.MatchesIsKeyEquality | create_time_series.py:158-172 | the `isnull` / `==` filter of a key's column picks exactly the rows of that key |
| Pivot.MatchesSameKey | create_time_series.py:158-172 | rows picked by one column share their key |
| Pivot.IdsOf | create_time_series.py:145-147 | the id lists are duplicate-free and hold exactly the ids some row's key carries in that dimension |
| Pivot.IdsOfFirstAppearance | create_time_series.py:145-147 | the id lists follow the order in which the rows first carry each id |
| Pivot.SeriesOf | create_time_series.py:172-181 | a column's series fails exactly when two picked rows share a day; otherwise its days are exactly the picked rows' days, each holding that row's value of the column's measure |
| Pivot.AllSeries | create_time_series.py:153-182 | every column's series is built, in column order, and fails exactly when some column has a repeated day |
| Pivot.DaysOf | create_time_series.py:185 | the outer join's index holds exactly the days some series has |
| Pivot.DatasetToTimeseries | create_time_series.py:132-186 | the wide table's columns are `create_column_names` over the market, category and vendor ids seen in the rows; it has one series per column, the columns are duplicate-free, and its index holds every series' days |
| Pivot.TimeseriesColumns | create_time_series.py:145-151 | the table has 2 × (markets + categories + vendors + 1) columns: the discount block over the seen market ids, then the category ids, then the vendor ids (each in first-appearance order), then the total; after it, the price block mirrors it key by key |
| Pivot.RowHasColumns | create_time_series.py:145-151 | every row's key has a column for each measure |
| Pivot.TimeseriesSucceedsIff | create_time_series.py:185 | the join fails exactly when some key has two rows on the same day |
| Pivot.TimeseriesHoldsEveryRow | create_time_series.py:153-185 | when no key has two rows on one day, the join succeeds and every row's value appears in the column of its key and measure, on the row's day |
| Pivot.TimeseriesCellFromRow | create_time_series.py:153-185 | when no key has two rows on one day, the join succeeds and every value in the table comes from the row of the column's key on that day |
| Pivot.TimeseriesDays | create_time_series.py:185 | when no key has two rows on one day, the join succeeds and its index is exactly the set of the rows' days |
| Pivot.Labels | create_time_series.py:176-179 | label i is the `f'{mar:.0f}-{cat:.0f}-{ven:.0f}-{disc}'` text of column i, and duplicate-free columns get duplicate-free labels |
| Pivot.LabelsRoundTrip | create_time_series.py:176-179 | every header label parses back to its own column, so the header loses nothing |

## Left out

- `get_preprocessed_data` (reading the CSV, dropping outliers and unused columns): file I/O and data cleaning outside the transformation core.
- The per-group and overall means, `count` and `quantity`: the means are floating point, and all of these are dropped from the long table (data_preprocessing.py:221). The model keeps the count and quantity sums inside `Stats` but no mean.
- `tqdm` progress bars, `warnings` configuration and the `_instances` clearing: no effect on the data.
- Calendar handling: `strptime` is the abstract `parse` parameter and `pd.to_datetime(...).dt.date` is the identity on day ordinals. A day is an integer, so `timedelta` arithmetic is integer addition.
- Column order of the long table beyond the key columns: the model names the measure fields instead of positions. `agg_data.columns[4:]` is taken to be the two measures.
- The order of rows with equal days after `sort_values`: pandas' default sort is not stable. The model uses a stable sort, and its contracts state only that the output is ordered by day and is a permutation.
- The row order of the joined table's index: `pd.concat` may or may not sort it. The index is modelled as a set of days.
- `pd.concat` with repeated days in a series: the model returns a failure whenever any column has two rows on one day. It does not model the pandas fast path when every series shares one identical index.
- The empty-`Series` seed and `s.drop(0, axis=1)` of `get_target_vals` (data_preprocessing.py:143, 166): these only remove a spurious column that the initial empty Series introduces.
- Records.KeyLayoutDistinct: the distinctness of the three configured allow-lists is a precondition, not proved for the literal lists. Read off the source, the 38, 46 and 43 ids are each duplicate-free.
- Expansion.AddNans: `n_target_values` is a natural number. A negative value, which Python's slicing and `np.repeat` would treat differently, is not modelled. The function is pure. The source also zero-fills the caller's `agg_data` in place (create_time_series.py:82-83), and that side effect is not modelled.
- Aggregation.Block: `.loc` with a list of ids is modelled as a reindex, so an allow-listed id with no transactions that day gets a row with unset statistics. This is how pandas before 1.0 treats a list of labels with some present. When none of a dimension's allow-listed ids occurs on a day, `.loc` raises `KeyError` (data_preprocessing.py:151). From pandas 1.0 any absent label raises. The model returns unset rows in both cases and does not model the error.
- Naming.IdText: ids are integers. The `.0f` rounding of a non-integral float id is not modelled.

## Findings

| source | as written | input that shows it | evidently intended | confidence | as-written member | corrected member |
|---|---|---|---|---|---|---|
| create_time_series.py:26-33 | visits the missing days one by one and relabels every replacement row dated a year before the visited day, including rows an earlier visit already moved | rows on days 0 and 731 only: days 365 and 730 are both missing; when 365 is visited first, the row of day 0 is moved to 365 and then again to 730, so day 365 stays empty and day 730 gets day 0's data | each missing day receives the rows of exactly the day 365 days earlier | not executed | Continuity.LoopRelabelsTwice | Continuity.YearShift |

=== FILE: aggregation.dfy ===
/** The per-day aggregator of data_preprocessing.py: group one day's
    transactions by market, category and vendor (restricted to the
    allow-lists), add a grand-total row, tag each row with its day, and keep
    the per-key sums under the primary measure names. */
module Aggregation {
  import opened Wrappers
  import opened Sequences
  import opened Records
  import opened Columns

  /** Count and integer sums of one group of transactions. */
  datatype Stats = Stats(
    count: nat,
    fullPriceSum: int,
    fullDiscountPriceSum: int,
    quantitySum: int)

  function Price(t: Txn): int { t.fullPrice }
  function DiscountPrice(t: Txn): int { t.fullDiscountPrice }
  function Quantity(t: Txn): int { t.quantity }

  /** Reference statistics of a group: its size and the sum of each measure. */
  function Tally(s: seq<Txn>): Stats {
    Stats(|s|, SumOf(s, Price), SumOf(s, DiscountPrice), SumOf(s, Quantity))
  }

  /** The transactions of `s` that key `k` describes, in input order. */
  function Select(s: seq<Txn>, k: Key): seq<Txn> {
    if |s| == 0 then []
    else
      var last := s[|s| - 1];
      Select(s[..|s| - 1], k) + (if KeyMatches(k, last) then [last] else [])
  }

  /** The boolean mask keeps every matching transaction as often as it
      occurs, and nothing else. */
  lemma {:induction false} SelectCounts(s: seq<Txn>, k: Key)
    ensures forall t :: multiset(Select(s, k))[t] == if KeyMatches(k, t) then multiset(s)[t] else 0
  {
    if |s| > 0 {
      var p, last := s[..|s| - 1], s[|s| - 1];
      SelectCounts(p, k);
      assert s == p + [last];
    }
  }

  /** What the aggregator reports for key `k`: the grand total always exists;
      a grouped key exists only when some transaction carries its id (else
      the older-pandas `.loc` reindex leaves the row's measures unset). */
  function ExpectedStats(s: seq<Txn>, k: Key): Option<Stats> {
    var sel := Select(s, k);
    if k.Total? || |sel| > 0 then Some(Tally(sel)) else None
  }

  /** One-row aggregate with a transaction folded in. */
  function AddTxn(st: Stats, t: Txn): Stats {
    Stats(st.count + 1, st.fullPriceSum + t.fullPrice,
          st.fullDiscountPriceSum + t.fullDiscountPrice, st.quantitySum + t.quantity)
  }

  lemma KeyForMatches(d: Dim, id: int, t: Txn)
    ensures KeyMatches(KeyFor(d, id), t) <==> IdOf(t, d) == Some(id)
  {
  }

  lemma SelectSnoc(p: seq<Txn>, t: Txn, k: Key)
    ensures Select(p + [t], k) == Select(p, k) + (if KeyMatches(k, t) then [t] else [])
  {
    assert (p + [t])[..|p|] == p;
  }

  lemma TallySnoc(sel: seq<Txn>, t: Txn)
    ensures Tally(sel + [t]) == AddTxn(Tally(sel), t)
  {
    assert (sel + [t])[..|sel|] == sel;
  }

  /** `g` holds, for every id of dimension `d` present in `s`, the statistics
      of exactly the transactions carrying that id, and no other entry. */
  ghost predicate GroupsOf(g: map<int, Stats>, s: seq<Txn>, d: Dim) {
    && (forall id :: id in g <==> |Select(s, KeyFor(d, id))| > 0)
    && (forall id :: id in g ==> g[id] == Tally(Select(s, KeyFor(d, id))))
  }

  lemma GroupStepNull(g: map<int, Stats>, p: seq<Txn>, t: Txn, d: Dim)
    requires GroupsOf(g, p, d) && IdOf(t, d).None?
    ensures GroupsOf(g, p + [t], d)
  {
    forall id ensures Select(p + [t], KeyFor(d, id)) == Select(p, KeyFor(d, id)) {
      SelectSnoc(p, t, KeyFor(d, id));
      KeyForMatches(d, id, t);
    }
  }

  lemma GroupStepId(g: map<int, Stats>, p: seq<Txn>, t: Txn, d: Dim, id: int)
    requires GroupsOf(g, p, d) && IdOf(t, d) == Some(id)
    ensures GroupsOf(g[id := AddTxn(if id in g then g[id] else Tally([]), t)], p + [t], d)
  {
    var g' := g[id := AddTxn(if id in g then g[id] else Tally([]), t)];
    forall x
      ensures x in g' <==> |Select(p + [t], KeyFor(d, x))| > 0
      ensures x in g' ==> g'[x] == Tally(Select(p + [t], KeyFor(d, x)))
    {
      var sel := Select(p, KeyFor(d, x));
      SelectSnoc(p, t, KeyFor(d, x));
      KeyForMatches(d, x, t);
      if x == id {
        TallySnoc(sel, t);
        if x in g {
          assert g[x] == Tally(sel);
        } else {
          assert sel == [];
        }
        assert g'[x] == AddTxn(Tally(sel), t);
        assert Select(p + [t], KeyFor(d, x)) == sel + [t];
      } else {
        assert Select(p + [t], KeyFor(d, x)) == sel;
        if x in g {
          assert g'[x] == g[x] == Tally(sel);
        }
      }
    }
  }

  /** `groupby(column)` followed by `size()` and `sum()`: one pass over the
      transactions accumulating a map from each id seen to its statistics.
      Rows whose id is null fall in no group. */
  function GroupBy(s: seq<Txn>, d: Dim): (g: map<int, Stats>)
    ensures GroupsOf(g, s, d)
  {
    if |s| == 0 then map[]
    else
      var p := s[..|s| - 1];
      var t := s[|s| - 1];
      var g0 := GroupBy(p, d);
      assert s == p + [t];
      match IdOf(t, d)
      case None =>
        GroupStepNull(g0, p, t, d);
        g0
      case Some(id) =>
        GroupStepId(g0, p, t, d, id);
        g0[id := AddTxn(if id in g0 then g0[id] else Tally([]), t)]
  }

  /** One row of the pre-rename aggregate table: a key and its statistics,
      unset when the key's group is empty. */
  datatype StatRow = StatRow(key: Key, stats: Option<Stats>)

  /** `agg_df.loc[bound_dict[column]]`: one row per allow-listed id, in
      allow-list order, with the two other key fields unset. */
  function Block(s: seq<Txn>, d: Dim, ids: seq<int>): (r: seq<StatRow>)
    ensures |r| == |ids|
    ensures forall i :: 0 <= i < |ids| ==>
      r[i] == StatRow(KeyFor(d, ids[i]), ExpectedStats(s, KeyFor(d, ids[i])))
  {
    var g := GroupBy(s, d);
    seq(|ids|, i requires 0 <= i < |ids| =>
      StatRow(KeyFor(d, ids[i]), if ids[i] in g then Some(g[ids[i]]) else None))
  }

  lemma SelectTotal(s: seq<Txn>)
    ensures Select(s, Total) == s
  {
    if |s| > 0 {
      SelectTotal(s[..|s| - 1]);
      assert s == s[..|s| - 1] + [s[|s| - 1]];
    }
  }

  /** `get_target_vals` for allow-lists `ms`, `cs`, `vs`: the market,
      category and vendor blocks, then the grand total over every
      transaction. */
  function TargetValsFor(s: seq<Txn>, ms: seq<int>, cs: seq<int>, vs: seq<int>): (r: seq<StatRow>)
    ensures |r| == |KeyLayout(ms, cs, vs)|
    ensures forall i :: 0 <= i < |r| ==>
      r[i] == StatRow(KeyLayout(ms, cs, vs)[i], ExpectedStats(s, KeyLayout(ms, cs, vs)[i]))
    ensures r[|r| - 1] == StatRow(Total, Some(Tally(s)))
  {
    var ks := KeyLayout(ms, cs, vs);
    var bm, bc, bv := Block(s, MarketDim, ms), Block(s, CategoryDim, cs), Block(s, VendorDim, vs);
    var r := bm + bc + bv + [StatRow(Total, Some(Tally(s)))];
    KeyLayoutBlocks(ms, cs, vs);
    SelectTotal(s);
    assert forall i :: 0 <= i < |r| ==> r[i] == StatRow(ks[i], ExpectedStats(s, ks[i])) by {
      forall i | 0 <= i < |r| ensures r[i] == StatRow(ks[i], ExpectedStats(s, ks[i])) {
        var a, b, c := |ms|, |ms| + |cs|, |ms| + |cs| + |vs|;
        if i < a {
          assert r[i] == bm[i];
        } else if i < b {
          assert r[i] == bc[i - a];
        } else if i < c {
          assert r[i] == bv[i - b];
        }
      }
    }
    r
  }

  /** `get_target_vals` with the configured allow-lists: 128 rows per day. */
  function TargetVals(s: seq<Txn>): (r: seq<StatRow>)
    ensures |r| == |DayKeys()| == DefaultTargetValues
    ensures forall i :: 0 <= i < |r| ==>
      r[i] == StatRow(DayKeys()[i], ExpectedStats(s, DayKeys()[i]))
    ensures r[|r| - 1] == StatRow(Total, Some(Tally(s)))
  {
    DayKeysShape();
    TargetValsFor(s, MarketIds, CategoryIds, VendorIds)
  }

  /** `rename_target_columns` and the drop that follows it: the primary
      measure names now hold the sums; count, quantity and the means go. */
  function Renamed(date: int, row: StatRow): AggRow {
    match row.stats
    case None => AggRow(date, row.key, None, None)
    case Some(st) => AggRow(date, row.key, Some(st.fullDiscountPriceSum), Some(st.fullPriceSum))
  }

  function Dates(s: seq<Txn>): (ds: seq<int>)
    ensures |ds| == |s|
    ensures forall i :: 0 <= i < |s| ==> ds[i] == s[i].date
  {
    seq(|s|, i requires 0 <= i < |s| => s[i].date)
  }

  /** `df[cd == date]`: the transactions of one day, in input order. */
  function OnDay(s: seq<Txn>, day: int): (r: seq<Txn>)
    ensures forall t :: t in r <==> t in s && t.date == day
  {
    if |s| == 0 then []
    else (if s[0].date == day then [s[0]] else []) + OnDay(s[1..], day)
  }

  /** The day's mask keeps each transaction of that day as often as it
      occurs, so the day's counts are right. */
  lemma {:induction false} OnDayCounts(s: seq<Txn>, day: int)
    ensures forall t :: multiset(OnDay(s, day))[t] == if t.date == day then multiset(s)[t] else 0
  {
    if |s| > 0 {
      OnDayCounts(s[1..], day);
      assert s == [s[0]] + s[1..];
    }
  }

  /** A row of the aggregated table describes key `k` on day `day` of `s`:
      its sums are those of exactly the matching transactions of that day,
      and are unset when there are none. */
  ghost predicate Describes(row: AggRow, s: seq<Txn>, day: int, k: Key) {
    var sel := Select(OnDay(s, day), k);
    && row.date == day
    && row.key == k
    && row.fullPrice == (if |sel| > 0 then Some(SumOf(sel, Price)) else None)
    && row.fullDiscountPrice == (if |sel| > 0 then Some(SumOf(sel, DiscountPrice)) else None)
  }

  lemma OnDayNonEmpty(s: seq<Txn>, day: int)
    requires day in Dates(s)
    ensures |OnDay(s, day)| > 0
  {
    var k :| 0 <= k < |s| && Dates(s)[k] == day;
    assert s[k] in OnDay(s, day);
  }

  /** Renaming the statistics that the aggregator reports for key `k` gives
      a row that describes `k` on a day that has transactions. */
  lemma RenamedDescribes(s: seq<Txn>, day: int, k: Key)
    requires day in Dates(s)
    ensures Describes(Renamed(day, StatRow(k, ExpectedStats(OnDay(s, day), k))), s, day, k)
  {
    OnDayNonEmpty(s, day);
    SelectTotal(OnDay(s, day));
  }

  /** The rows of one day: `get_target_vals` on that day's transactions,
      tagged with the day and renamed. */
  function DayBatch(s: seq<Txn>, day: int): (r: seq<AggRow>)
    requires day in Dates(s)
    ensures |r| == DefaultTargetValues
    ensures forall i :: 0 <= i < |r| ==> Describes(r[i], s, day, DayKeys()[i])
  {
    var tv := TargetVals(OnDay(s, day));
    var r := seq(|tv|, i requires 0 <= i < |tv| => Renamed(day, tv[i]));
    assert forall i :: 0 <= i < |r| ==> Describes(r[i], s, day, DayKeys()[i]) by {
      forall i | 0 <= i < |r| ensures Describes(r[i], s, day, DayKeys()[i]) {
        RenamedDescribes(s, day, DayKeys()[i]);
      }
    }
    r
  }

  /** A batch of rows describing every day key on the first of `days`,
      followed by rows describing the other days, describes all of `days`. */
  lemma ConsBatch(s: seq<Txn>, days: seq<int>, b: seq<AggRow>, rest: seq<AggRow>)
    requires |days| > 0
    requires |b| == DefaultTargetValues && |rest| == DefaultTargetValues * (|days| - 1)
    requires forall i :: 0 <= i < |b| ==> Describes(b[i], s, days[0], DayKeys()[i])
    requires forall j, i :: 0 <= j < |days| - 1 && 0 <= i < DefaultTargetValues ==>
      Describes(rest[DefaultTargetValues * j + i], s, days[1..][j], DayKeys()[i])
    ensures |b + rest| == DefaultTargetValues * |days|
    ensures forall j, i :: 0 <= j < |days| && 0 <= i < DefaultTargetValues ==>
      Describes((b + rest)[DefaultTargetValues * j + i], s, days[j], DayKeys()[i])
  {
    forall j, i | 0 <= j < |days| && 0 <= i < DefaultTargetValues
      ensures Describes((b + rest)[DefaultTargetValues * j + i], s, days[j], DayKeys()[i])
    {
      if j == 0 {
        assert (b + rest)[i] == b[i];
      } else {
        assert (b + rest)[DefaultTargetValues * j + i] == rest[DefaultTargetValues * (j - 1) + i];
        assert days[1..][j - 1] == days[j];
      }
    }
  }

  /** Concatenation of the batches of `days`, in order. */
  function Batches(s: seq<Txn>, days: seq<int>): (r: seq<AggRow>)
    requires forall d :: d in days ==> d in Dates(s)
    ensures |r| == DefaultTargetValues * |days|
    ensures forall j, i :: 0 <= j < |days| && 0 <= i < DefaultTargetValues ==>
      Describes(r[DefaultTargetValues * j + i], s, days[j], DayKeys()[i])
  {
    if |days| == 0 then []
    else
      var b := DayBatch(s, days[0]);
      var rest := Batches(s, days[1..]);
      ConsBatch(s, days, b, rest);
      b + rest
  }

  /** The columns of the concatenated per-day frames, before
      `sort_columns`: the key columns, the count, and each measure's mean
      (under its own name) and sum. */
  const LongTableColumns: seq<string> := KeyColumns + [
    "count", "full_discount_price", "full_discount_price_sum",
    "full_price", "full_price_sum", "quantity", "quantity_sum"]

  /** `get_aggregated_data`: one batch of rows per distinct day, the days in
      order of first appearance. With no transaction the concatenated frame
      has no column at all, and `sort_columns` raises on `category_id`. */
  function AggregatedData(s: seq<Txn>): (r: Result<seq<AggRow>, ColumnError>)
    ensures r.Failure? <==> |s| == 0
    ensures r.Failure? ==> r.error == MissingColumn("category_id")
    ensures r.Success? ==> |r.value| == DefaultTargetValues * |Unique(Dates(s))|
    ensures r.Success? ==> forall j, i :: 0 <= j < |Unique(Dates(s))| && 0 <= i < DefaultTargetValues ==>
      Describes(r.value[DefaultTargetValues * j + i], s, Unique(Dates(s))[j], DayKeys()[i])
  {
    var cols := if |s| == 0 then [] else LongTableColumns;
    assert |s| > 0 ==> multiset(KeyColumns) <= multiset(cols);
    var ordered :- SortColumns(cols);
    Success(Batches(s, Unique(Dates(s))))
  }
}

=== FILE: columns.dfy ===
/** Column bookkeeping of the aggregated table: `sort_columns` puts the day
    and the three key columns first and every other column after them in
    ascending name order. */
module Columns {
  import opened Wrappers
  import opened Sequences
  import opened Sorting

  /** The leading columns, in the order `sort_columns` puts them. */
  const KeyColumns: seq<string> := ["create_date", "category_id", "market_id", "vendor_id"]

  /** Python's `sorted` on column names: ascending by code point. */
  function SortedNames(cols: seq<string>): (r: seq<string>)
    ensures SortedBy(StrLe, r)
    ensures multiset(r) == multiset(cols) && |r| == |cols|
  {
    StrLeIsTotalPreorder();
    InsertionSort(StrLe, cols)
  }

  /** `sorted` has one possible answer: any ordered permutation of the
      columns is the sorted list. */
  lemma SortedNamesUnique(cols: seq<string>, t: seq<string>)
    requires SortedBy(StrLe, t) && multiset(t) == multiset(cols)
    ensures t == SortedNames(cols)
  {
    StrSortedUnique(t, SortedNames(cols));
  }

  /** `list.remove` raised `ValueError` for this column name. */
  datatype ColumnError = MissingColumn(name: string)

  /** Python's `list.remove(x)`: drops the first occurrence of `x`, and fails
      when there is none. */
  function RemoveFirst(s: seq<string>, x: string): (r: Result<seq<string>, ColumnError>)
    ensures r.Success? <==> x in s
    ensures r.Failure? ==> r.error == MissingColumn(x)
    ensures r.Success? ==> multiset(r.value) + multiset{x} == multiset(s)
    ensures r.Success? ==> |r.value| + 1 == |s|
  {
    if x !in s then Failure(MissingColumn(x))
    else
      var k := FirstIndex(s, x);
      assert s == s[..k] + [x] + s[k + 1..];
      Success(s[..k] + s[k + 1..])
  }

  /** Dropping an element from a sorted list leaves it sorted. */
  lemma RemoveFirstSorted(s: seq<string>, x: string)
    requires SortedBy(StrLe, s) && x in s
    ensures SortedBy(StrLe, RemoveFirst(s, x).value)
  {
    var k := FirstIndex(s, x);
    var r := s[..k] + s[k + 1..];
    forall i, j | 0 <= i < j < |r| ensures StrLe(r[i], r[j]) {
      var i' := if i < k then i else i + 1;
      var j' := if j < k then j else j + 1;
      assert r[i] == s[i'] && r[j] == s[j'];
    }
  }

  lemma MultisetCancel(a: multiset<string>, b: multiset<string>, x: string)
    ensures a + multiset{x} <= b + multiset{x} <==> a <= b
  {
    if a + multiset{x} <= b + multiset{x} {
      forall y ensures a[y] <= b[y] {
        assert (a + multiset{x})[y] <= (b + multiset{x})[y];
      }
    }
  }

  /** Removing `names[..k]` from `s` succeeds but removing `names[k]` as
      well does not: `names[k]` is the first name whose removal fails. */
  predicate FirstShortfall(s: seq<string>, names: seq<string>, k: int) {
    && 0 <= k < |names|
    && multiset(names[..k]) <= multiset(s)
    && !(multiset(names[..k + 1]) <= multiset(s))
  }

  /** Successive `list.remove` calls, one per name, stopping at the first
      failure. It succeeds exactly when `s` holds every name as many times as
      it is removed. */
  function RemoveEach(s: seq<string>, names: seq<string>): (r: Result<seq<string>, ColumnError>)
    ensures r.Success? <==> multiset(names) <= multiset(s)
    ensures r.Failure? ==> r.error.name in names
    ensures |names| > 0 && names[0] !in s ==> r == Failure(MissingColumn(names[0]))
    ensures r.Failure? ==> exists k :: FirstShortfall(s, names, k) && r.error == MissingColumn(names[k])
    ensures r.Success? ==> multiset(r.value) + multiset(names) == multiset(s)
    ensures r.Success? && SortedBy(StrLe, s) ==> SortedBy(StrLe, r.value)
  {
    if |names| == 0 then Success(s)
    else
      assert names == [names[0]] + names[1..];
      match RemoveFirst(s, names[0])
      case Failure(e) =>
        assert names[0] !in multiset(s);
        assert names[..0] == [] && names[..1] == [names[0]];
        assert FirstShortfall(s, names, 0);
        Failure(e)
      case Success(s') =>
        MultisetCancel(multiset(names[1..]), multiset(s'), names[0]);
        assert SortedBy(StrLe, s) ==> SortedBy(StrLe, s') by {
          if SortedBy(StrLe, s) {
            RemoveFirstSorted(s, names[0]);
          }
        }
        var r := RemoveEach(s', names[1..]);
        assert r.Failure? ==> exists k :: FirstShortfall(s, names, k) && r.error == MissingColumn(names[k]) by {
          if r.Failure? {
            var k :| FirstShortfall(s', names[1..], k) && r.error == MissingColumn(names[1..][k]);
            ShortfallShift(s, s', names, k);
            assert names[1..][k] == names[k + 1];
          }
        }
        r
  }

  /** A shortfall after the first name was removed is a shortfall one
      position later in the full list. */
  lemma ShortfallShift(s: seq<string>, s': seq<string>, names: seq<string>, k: int)
    requires |names| > 0 && multiset(s') + multiset{names[0]} == multiset(s)
    requires FirstShortfall(s', names[1..], k)
    ensures FirstShortfall(s, names, k + 1)
  {
    var t := names[1..];
    assert names[..k + 1] == [names[0]] + t[..k];
    assert names[..k + 2] == [names[0]] + t[..k + 1];
    MultisetCancel(multiset(t[..k]), multiset(s'), names[0]);
    MultisetCancel(multiset(t[..k + 1]), multiset(s'), names[0]);
  }

  /** The names `sort_columns` removes, in the order it removes them. */
  const RemovalOrder: seq<string> := ["category_id", "market_id", "vendor_id", "create_date"]

  lemma RemovalOrderPermutesKeyColumns()
    ensures multiset(RemovalOrder) == multiset(KeyColumns)
  {
    assert RemovalOrder == [KeyColumns[1], KeyColumns[2], KeyColumns[3], KeyColumns[0]];
  }

  /** Putting back in front, in any order, the names that were removed
      restores the original multiset of names. */
  lemma PutBackInFront(front: seq<string>, removed: seq<string>, rest: seq<string>, cols: seq<string>)
    requires multiset(rest) + multiset(removed) == multiset(cols)
    requires multiset(removed) == multiset(front)
    ensures multiset(front + rest) == multiset(cols)
    ensures |front + rest| == |cols|
  {
    assert |multiset(rest)| + |multiset(removed)| == |multiset(cols)|;
  }

  /** `sort_columns`: sort every name, remove the four key columns (category,
      market, vendor, day, in that order, failing at the first one missing)
      and put them back in front. */
  function SortColumns(cols: seq<string>): (r: Result<seq<string>, ColumnError>)
    ensures r.Success? <==> multiset(KeyColumns) <= multiset(cols)
    ensures r.Failure? ==> r.error.name in KeyColumns
    ensures "category_id" !in cols ==> r == Failure(MissingColumn("category_id"))
    ensures r.Success? ==> multiset(r.value) == multiset(cols)
    ensures r.Success? ==> |r.value| == |cols|
    ensures r.Success? ==> |r.value| >= 4 && r.value[..4] == KeyColumns
    ensures r.Success? ==> |r.value| >= 4 && SortedBy(StrLe, r.value[4..])
  {
    var sorted := SortedNames(cols);
    RemovalOrderPermutesKeyColumns();
    assert "category_id" in sorted ==> "category_id" in multiset(cols);
    var rest :- RemoveEach(sorted, RemovalOrder);
    PutBackInFront(KeyColumns, RemovalOrder, rest, cols);
    var r := KeyColumns + rest;
    assert r[..|KeyColumns|] == KeyColumns && r[|KeyColumns|..] == rest;
    Success(r)
  }

  lemma KeyColumnsDistinct()
    ensures Distinct(KeyColumns)
  {
    assert KeyColumns[0][1] != KeyColumns[1][1];
    assert |KeyColumns[0]| != |KeyColumns[2]| && |KeyColumns[0]| != |KeyColumns[3]|;
    assert |KeyColumns[1]| != |KeyColumns[2]| && |KeyColumns[1]| != |KeyColumns[3]|;
    assert KeyColumns[2][0] != KeyColumns[3][0];
  }

  /** The four key columns are distinct, so `sort_columns` succeeds exactly
      when each of them is present. */
  lemma SortColumnsNeedsKeyColumns(cols: seq<string>)
    ensures SortColumns(cols).Success? <==> forall c :: c in KeyColumns ==> c in cols
  {
    var m := multiset(KeyColumns);
    KeyColumnsDistinct();
    assert forall c :: m[c] == (if c in KeyColumns then 1 else 0);
    if forall c :: c in KeyColumns ==> c in cols {
      forall c ensures m[c] <= multiset(cols)[c] {
        if c in KeyColumns {
          assert c in multiset(cols);
        }
      }
    }
  }
}

=== FILE: continuity.dfy ===
/** `copy_missing_days` of create_time_series.py: find the days missing
    between the first and the last row's date, and fill each one with the
    rows dated exactly 365 days earlier, relabelled to the missing day. */
module Continuity {
  import opened Wrappers
  import opened Sequences
  import opened Sorting
  import opened Records

  /** The fixed look-back of the filler: no leap-year correction. */
  const YearOffset: int := 365

  /** `iloc[0]` on an empty table raises `IndexError`. */
  datatype FillError = EmptyTable

  function DateSet(rows: seq<AggRow>): set<int> {
    set r | r in rows :: r.date
  }

  predicate DateLe(a: AggRow, b: AggRow) {
    a.date <= b.date
  }

  predicate SortedByDate(rows: seq<AggRow>) {
    forall i, j :: 0 <= i < j < |rows| ==> rows[i].date <= rows[j].date
  }

  /** `sort_values(by="create_date")`. The source's sort is not stable; this
      one is, and every property below holds for any order among rows of one
      day. */
  function SortByDate(rows: seq<AggRow>): (r: seq<AggRow>)
    ensures SortedByDate(r)
    ensures multiset(r) == multiset(rows) && |r| == |rows|
  {
    assert TotalPreorder(DateLe);
    var r := InsertionSort(DateLe, rows);
    assert forall i, j :: 0 <= i < j < |r| ==> DateLe(r[i], r[j]);
    r
  }

  /** The days from the first row's date to the last row's date that no row
      carries. */
  function MissingDays(rows: seq<AggRow>): (m: set<int>)
    requires |rows| > 0
  {
    set d | rows[0].date <= d <= rows[|rows| - 1].date && d !in DateSet(rows)
  }

  /** A copy of `r` moved forward by one year. */
  function Shifted(r: AggRow): AggRow {
    r.(date := r.date + YearOffset)
  }

  /** The rows dated a year before some day of `missing`, each relabelled to
      that day, in input order. */
  function Copies(rows: seq<AggRow>, missing: set<int>): (c: seq<AggRow>)
    ensures |c| <= |rows|
    ensures forall x :: x in c <==> exists r :: r in rows && r.date + YearOffset in missing && x == Shifted(r)
  {
    if |rows| == 0 then []
    else
      var r := rows[|rows| - 1];
      Copies(rows[..|rows| - 1], missing) + (if r.date + YearOffset in missing then [Shifted(r)] else [])
  }

  /** Each row dated a year before a missing day is copied as often as it
      occurs; nothing else is produced. */
  lemma {:induction false} CopiesCounts(rows: seq<AggRow>, missing: set<int>)
    ensures forall x ::
      multiset(Copies(rows, missing))[x] == if x.date in missing then multiset(rows)[x.(date := x.date - YearOffset)] else 0
  {
    if |rows| > 0 {
      var p, r := rows[..|rows| - 1], rows[|rows| - 1];
      CopiesCounts(p, missing);
      assert rows == p + [r];
      forall x ensures multiset(Copies(rows, missing))[x] ==
        if x.date in missing then multiset(rows)[x.(date := x.date - YearOffset)] else 0
      {
        CopiesCountStep(p, r, missing, x);
      }
    }
  }

  /** One more row adds its copy, if any, to the count of that copy. */
  lemma CopiesCountStep(p: seq<AggRow>, r: AggRow, missing: set<int>, x: AggRow)
    requires multiset(Copies(p, missing))[x] == if x.date in missing then multiset(p)[x.(date := x.date - YearOffset)] else 0
    ensures multiset(Copies(p + [r], missing))[x] ==
      if x.date in missing then multiset(p + [r])[x.(date := x.date - YearOffset)] else 0
  {
    var rows := p + [r];
    assert rows[..|rows| - 1] == p && rows[|rows| - 1] == r;
    var tail := if r.date + YearOffset in missing then [Shifted(r)] else [];
    assert Copies(rows, missing) == Copies(p, missing) + tail;
    var y := x.(date := x.date - YearOffset);
    assert multiset(Copies(rows, missing)) == multiset(Copies(p, missing)) + multiset(tail);
    assert multiset(rows) == multiset(p) + multiset{r};
    assert Shifted(r) == x <==> r == y;
  }

  /** `copy_missing_days`: append the copies and sort by day. */
  function CopyMissingDays(rows: seq<AggRow>): (r: Result<seq<AggRow>, FillError>)
    ensures r.Success? <==> |rows| > 0
    ensures r.Success? ==> SortedByDate(r.value)
    ensures r.Success? ==> multiset(r.value) == multiset(rows) + multiset(Copies(rows, MissingDays(rows)))
    ensures r.Success? ==> |r.value| == |rows| + |Copies(rows, MissingDays(rows))|
  {
    if |rows| == 0 then Failure(EmptyTable)
    else Success(SortByDate(rows + Copies(rows, MissingDays(rows))))
  }

  /** On a table sorted by day, the first and last rows carry the earliest
      and latest days, so every day lying between two rows' days and carried
      by none is missing, and no other day is. */
  lemma {:induction false} SortedBoundsAreExtremes(rows: seq<AggRow>)
    requires |rows| > 0 && SortedByDate(rows)
    ensures forall r :: r in rows ==> rows[0].date <= r.date <= rows[|rows| - 1].date
    ensures forall d, a, b ::
      a in rows && b in rows && a.date <= d <= b.date && d !in DateSet(rows) ==> d in MissingDays(rows)
  {
    forall r | r in rows ensures rows[0].date <= r.date <= rows[|rows| - 1].date {
      var i :| 0 <= i < |rows| && rows[i] == r;
    }
  }

  lemma InDateSet(rows: seq<AggRow>, d: int)
    ensures d in DateSet(rows) <==> exists r :: r in rows && r.date == d
  {
    if exists r :: r in rows && r.date == d {
      var r :| r in rows && r.date == d;
      assert r.date in DateSet(rows);
    }
  }

  lemma InFilled(rows: seq<AggRow>, x: AggRow)
    requires |rows| > 0
    ensures x in CopyMissingDays(rows).value <==> x in rows || x in Copies(rows, MissingDays(rows))
  {
    var out := CopyMissingDays(rows).value;
    assert x in out <==> x in multiset(out);
  }

  /** Continuity after filling: a day between the first and last row's date
      has a row exactly when it had one, or the day a year earlier had one.
      Otherwise the gap stays: there is no deeper look-back. */
  lemma FilledDays(rows: seq<AggRow>, d: int)
    requires |rows| > 0 && rows[0].date <= d <= rows[|rows| - 1].date
    ensures d in DateSet(CopyMissingDays(rows).value)
      <==> d in DateSet(rows) || d - YearOffset in DateSet(rows)
  {
    var out := CopyMissingDays(rows).value;
    var missing := MissingDays(rows);
    InDateSet(out, d);
    InDateSet(rows, d);
    InDateSet(rows, d - YearOffset);
    if d in DateSet(out) {
      var x :| x in out && x.date == d;
      InFilled(rows, x);
    } else if d in DateSet(rows) {
      var x :| x in rows && x.date == d;
      InFilled(rows, x);
    } else if d - YearOffset in DateSet(rows) {
      var r :| r in rows && r.date == d - YearOffset;
      assert d in missing;
      InFilled(rows, Shifted(r));
    }
  }

  /** Year-shift correctness: on a missing day the filled table holds
      exactly the rows of the day a year earlier, relabelled, with every key
      and measure unchanged. */
  lemma YearShift(rows: seq<AggRow>, d: int, x: AggRow)
    requires |rows| > 0 && d in MissingDays(rows) && x.date == d
    ensures x in CopyMissingDays(rows).value <==> x.(date := d - YearOffset) in rows
    ensures multiset(CopyMissingDays(rows).value)[x] == multiset(rows)[x.(date := d - YearOffset)]
  {
    InFilled(rows, x);
    InDateSet(rows, d);
    var r := x.(date := d - YearOffset);
    assert Shifted(r) == x;
    assert x !in rows;
    CopiesCounts(rows, MissingDays(rows));
  }

  /** Days that were not missing keep exactly their rows, with multiplicity. */
  lemma OtherDaysUnchanged(rows: seq<AggRow>, x: AggRow)
    requires |rows| > 0 && x.date !in MissingDays(rows)
    ensures multiset(CopyMissingDays(rows).value)[x] == multiset(rows)[x]
  {
    assert x !in Copies(rows, MissingDays(rows));
  }

  // The relabelling loop as the source writes it (create_time_series.py:26-33).

  /** The day a row dated `date` ends up on when the missing days are
      visited in `order` and each visit moves every row dated a year before
      the visited day onto it, including rows an earlier visit already moved. */
  function Track(date: int, order: seq<int>): int
    decreases |order|
  {
    if |order| == 0 then date
    else Track(if order[0] - YearOffset == date then order[0] else date, order[1..])
  }

  /** `replacement`: the rows dated a year before some missing day, not yet
      relabelled. */
  function Replacement(rows: seq<AggRow>, missing: set<int>): (c: seq<AggRow>)
    ensures forall x :: x in c <==> x in rows && x.date + YearOffset in missing
  {
    if |rows| == 0 then []
    else
      var r := rows[|rows| - 1];
      Replacement(rows[..|rows| - 1], missing) + (if r.date + YearOffset in missing then [r] else [])
  }

  /** Each row dated a year before a missing day is taken as often as it
      occurs; nothing else is. */
  lemma {:induction false} ReplacementCounts(rows: seq<AggRow>, missing: set<int>)
    ensures forall x ::
      multiset(Replacement(rows, missing))[x] == if x.date + YearOffset in missing then multiset(rows)[x] else 0
  {
    if |rows| > 0 {
      var p, r := rows[..|rows| - 1], rows[|rows| - 1];
      ReplacementCounts(p, missing);
      assert rows == p + [r];
    }
  }

  /** The loop over `missing_dates` in iteration order `order`. */
  function RelabelInOrder(rows: seq<AggRow>, order: seq<int>): (r: seq<AggRow>)
    decreases |order|
    ensures |r| == |rows|
    ensures forall i :: 0 <= i < |rows| ==> r[i] == rows[i].(date := Track(rows[i].date, order))
  {
    if |order| == 0 then rows
    else
      var d := order[0];
      var moved := seq(|rows|, i requires 0 <= i < |rows| =>
        if rows[i].date == d - YearOffset then rows[i].(date := d) else rows[i]);
      RelabelInOrder(moved, order[1..])
  }

  lemma {:induction false} TrackConcat(date: int, a: seq<int>, b: seq<int>)
    decreases |a|
    ensures Track(date, a + b) == Track(Track(date, a), b)
  {
    if |a| == 0 {
      assert a + b == b;
    } else {
      assert (a + b)[0] == a[0] && (a + b)[1..] == a[1..] + b;
      TrackConcat(if a[0] - YearOffset == date then a[0] else date, a[1..], b);
    }
  }

  lemma {:induction false} TrackUntouched(date: int, order: seq<int>)
    decreases |order|
    requires date + YearOffset !in order
    ensures Track(date, order) == date
  {
    if |order| > 0 {
      TrackUntouched(date, order[1..]);
    }
  }

  /** A table with rows on days 0 and 731 only. */
  function TwoYearGap(): seq<AggRow> {
    [AggRow(0, Total, Some(1), Some(1)), AggRow(731, Total, Some(1), Some(1))]
  }

  /** Counterexample to the loop as written: in `TwoYearGap` both day 365
      and day 730 are missing. When the set iteration visits 365 before 730,
      the copy of day 0 is moved to 365 and then on to 730: day 730 receives
      data two years old and day 365 stays empty, although day 0 has data.
      `CopyMissingDays` moves each copy exactly one year. */
  lemma {:induction false} LoopRelabelsTwice(order: seq<int>, i: nat, j: nat)
    requires Distinct(order)
    requires forall d :: d in order <==> d in MissingDays(TwoYearGap())
    requires i < j < |order| && order[i] == 365 && order[j] == 730
    ensures var rows := TwoYearGap();
      && RelabelInOrder(Replacement(rows, MissingDays(rows)), order) == [rows[0].(date := 730)]
      && Copies(rows, MissingDays(rows)) == [rows[0].(date := 365)]
  {
    var rows := TwoYearGap();
    var x := rows[0];
    assert DateSet(rows) == {0, 731};
    var missing := MissingDays(rows);
    assert 365 in missing && 1096 !in missing && 1095 !in missing;
    assert rows[..1] == [x];
    assert Replacement(rows, missing) == [x];
    assert Copies(rows, missing) == [x.(date := 365)];
    assert order == order[..i] + [365] + order[i + 1..j] + [730] + order[j + 1..];
    assert 365 !in order[..i] by {
      forall k | 0 <= k < i ensures order[..i][k] != 365 {
        assert order[k] != order[i];
      }
    }
    assert 730 !in order[i + 1..j] by {
      forall k | i + 1 <= k < j ensures order[k] != 730 {
        assert order[k] != order[j];
      }
    }
    assert 1095 !in order[j + 1..];
    TrackUntouched(0, order[..i]);
    TrackUntouched(365, order[i + 1..j]);
    TrackUntouched(730, order[j + 1..]);
    TrackConcat(0, order[..i], [365]);
    TrackConcat(0, order[..i] + [365], order[i + 1..j]);
    TrackConcat(0, order[..i] + [365] + order[i + 1..j], [730]);
    TrackConcat(0, order[..i] + [365] + order[i + 1..j] + [730], order[j + 1..]);
  }

  lemma {:induction false} CopiesShiftReplacement(rows: seq<AggRow>, missing: set<int>)
    ensures |Copies(rows, missing)| == |Replacement(rows, missing)|
    ensures forall i :: 0 <= i < |Copies(rows, missing)| ==>
      Copies(rows, missing)[i] == Shifted(Replacement(rows, missing)[i])
  {
    if |rows| > 0 {
      CopiesShiftReplacement(rows[..|rows| - 1], missing);
    }
  }

  /** A day visited exactly once, with the day a year after it never
      visited, moves a row dated a year earlier exactly once. */
  lemma TrackOnce(date: int, order: seq<int>, k: nat)
    requires k < |order| && order[k] == date + YearOffset
    requires forall i :: 0 <= i < |order| && i != k ==> order[i] != date + YearOffset
    requires date + 2 * YearOffset !in order
    ensures Track(date, order) == date + YearOffset
  {
    assert order == order[..k] + [order[k]] + order[k + 1..];
    assert date + YearOffset !in order[..k] by {
      forall i | 0 <= i < k ensures order[..k][i] != date + YearOffset {
        assert order[..k][i] == order[i];
      }
    }
    assert date + 2 * YearOffset !in order[k + 1..];
    TrackUntouched(date, order[..k]);
    TrackUntouched(date + YearOffset, order[k + 1..]);
    TrackConcat(date, order[..k], [order[k]]);
    TrackConcat(date, order[..k] + [order[k]], order[k + 1..]);
  }

  /** A missing day is visited exactly once, and the day a year after it
      is not visited when it is not missing. */
  lemma VisitedOnce(date: int, order: seq<int>, missing: set<int>)
    requires Distinct(order)
    requires forall d :: d in order <==> d in missing
    requires date + YearOffset in missing && date + 2 * YearOffset !in missing
    ensures Track(date, order) == date + YearOffset
  {
    var d := date + YearOffset;
    assert d in order;
    var k :| 0 <= k < |order| && order[k] == d;
    assert forall i :: 0 <= i < |order| && i != k ==> order[i] != d;
    assert date + 2 * YearOffset !in order;
    TrackOnce(date, order, k);
  }

  /** When no two missing days are a year apart the loop's iteration order
      does not matter, and the loop computes exactly `Copies`. */
  lemma LoopAgreesWithoutYearApartGaps(rows: seq<AggRow>, order: seq<int>)
    requires |rows| > 0 && Distinct(order)
    requires forall d :: d in order <==> d in MissingDays(rows)
    requires forall d :: d in MissingDays(rows) ==> d + YearOffset !in MissingDays(rows)
    ensures RelabelInOrder(Replacement(rows, MissingDays(rows)), order) == Copies(rows, MissingDays(rows))
  {
    var missing := MissingDays(rows);
    var rep := Replacement(rows, missing);
    CopiesShiftReplacement(rows, missing);
    forall i | 0 <= i < |rep| ensures Track(rep[i].date, order) == rep[i].date + YearOffset {
      var date := rep[i].date;
      VisitedOnce(date, order, missing);
    }
  }
}

=== FILE: expansion.dfy ===
/** `get_target_days` and `add_nans` of create_time_series.py: parse the
    forecast ranges, zero-fill the historical sums, append one block of
    placeholder rows per target day, and re-run the continuity filler. */
module Expansion {
  import opened Wrappers
  import opened Sequences
  import opened Records
  import opened Continuity

  /** Number of occurrences of `c` in `s`. */
  function Occurrences(s: string, c: char): nat {
    if |s| == 0 then 0 else (if s[0] == c then 1 else 0) + Occurrences(s[1..], c)
  }

  /** The inverse of `Split`: the parts joined by `sep`. */
  function Join(parts: seq<string>, sep: char): string {
    if |parts| == 0 then ""
    else if |parts| == 1 then parts[0]
    else parts[0] + [sep] + Join(parts[1..], sep)
  }

  /** Python's `str.split(sep)` for a one-character separator. */
  function Split(s: string, sep: char): (parts: seq<string>)
    ensures |parts| == Occurrences(s, sep) + 1
    ensures forall i :: 0 <= i < |parts| ==> sep !in parts[i]
    ensures Join(parts, sep) == s
  {
    if |s| == 0 then [""]
    else
      var rest := Split(s[1..], sep);
      if s[0] == sep then
        assert s == [sep] + s[1..];
        [""] + rest
      else
        var parts := [[s[0]] + rest[0]] + rest[1..];
        assert forall i :: 1 <= i < |parts| ==> parts[i] == rest[i];
        assert s == [s[0]] + s[1..];
        assert |rest| > 1 ==> Join(rest, sep) == rest[0] + [sep] + Join(rest[1..], sep);
        parts
  }

  /** Why a forecast entry could not be read. */
  datatype ParseError =
    | NotOnePair(entry: string)   // `start, end = ...split(',')` did not unpack
    | BadDate(text: string)       // `strptime` rejected the text

  /** The entry's text with its first character dropped (`start[1:]`). */
  function DropFirst(s: string): string {
    if |s| == 0 then s else s[1..]
  }

  /** The entry's text with its last character dropped (`end[:-1]`). */
  function DropLast(s: string): string {
    if |s| == 0 then s else s[..|s| - 1]
  }

  /** A text without `sep` is one part. */
  lemma {:induction false} SplitNoSep(s: string, sep: char)
    requires sep !in s
    ensures Split(s, sep) == [s]
  {
    if |s| > 0 {
      SplitNoSep(s[1..], sep);
      assert [s[0]] + s[1..] == s;
    }
  }

  /** A text with exactly one comma splits into the texts around it. */
  lemma {:induction false} SplitOneComma(a: string, b: string)
    requires ',' !in a && ',' !in b
    ensures Split(a + "," + b, ',') == [a, b]
  {
    var s := a + "," + b;
    if |a| == 0 {
      assert s == [','] + b;
      assert s[1..] == b;
      SplitNoSep(b, ',');
    } else {
      assert s[1..] == a[1..] + "," + b;
      SplitOneComma(a[1..], b);
      assert [a[0]] + a[1..] == a;
    }
  }

  /** `entry` is `a`, one comma, and `b`, with no other comma. */
  predicate OneCommaSplit(entry: string, a: string, b: string) {
    entry == a + "," + b && ',' !in a && ',' !in b
  }

  /** Reads one `"(start,end)"` entry: split on the single comma, strip the
      leading and the trailing character, and parse both dates with `parse`
      (`strptime` with `%Y-%m-%d`, giving a day ordinal). The start text is
      parsed, and so reported, first. */
  function ParseEntry(entry: string, parse: string -> Option<int>): (r: Result<(int, int), ParseError>)
    ensures Occurrences(entry, ',') != 1 ==> r == Failure(NotOnePair(entry))
    ensures Occurrences(entry, ',') == 1 ==> exists a, b :: OneCommaSplit(entry, a, b)
    ensures forall a, b :: OneCommaSplit(entry, a, b) ==>
      && (r.Success? <==> parse(DropFirst(a)).Some? && parse(DropLast(b)).Some?)
      && (r.Success? ==> r.value == (parse(DropFirst(a)).value, parse(DropLast(b)).value))
      && (parse(DropFirst(a)).None? ==> r == Failure(BadDate(DropFirst(a))))
      && (parse(DropFirst(a)).Some? && parse(DropLast(b)).None? ==> r == Failure(BadDate(DropLast(b))))
  {
    var parts := Split(entry, ',');
    forall a, b | OneCommaSplit(entry, a, b) ensures parts == [a, b] {
      SplitOneComma(a, b);
    }
    if |parts| != 2 then Failure(NotOnePair(entry))
    else
      var a, b := DropFirst(parts[0]), DropLast(parts[1]);
      assert Join(parts[1..], ',') == parts[1];
      assert entry == parts[0] + "," + parts[1];
      assert OneCommaSplit(entry, parts[0], parts[1]);
      match (parse(a), parse(b))
      case (Some(start), Some(end)) => Success((start, end))
      case (None, _) => Failure(BadDate(a))
      case (_, None) => Failure(BadDate(b))
  }

  /** Every day from `start` to `end` inclusive, ascending; none when the
      range is inverted (`range(delta.days + 1)` is then empty). */
  function DayRange(start: int, end: int): (r: seq<int>)
    ensures |r| == if end < start then 0 else end - start + 1
    ensures forall d :: d in r <==> start <= d <= end
    ensures forall i, j :: 0 <= i < j < |r| ==> r[i] < r[j]
  {
    if end < start then []
    else
      var r := seq(end - start + 1, i requires 0 <= i <= end - start => start + i);
      assert forall d :: start <= d <= end ==> d in r by {
        forall d | start <= d <= end ensures d in r {
          assert r[d - start] == d;
        }
      }
      r
  }

  /** Entry `e` parses to a range that contains day `d`. */
  predicate Covers(e: string, parse: string -> Option<int>, d: int) {
    var r := ParseEntry(e, parse);
    r.Success? && r.value.0 <= d <= r.value.1
  }

  /** The days of the entries `es`, each entry's range in turn. */
  function RangesDays(es: seq<string>, parse: string -> Option<int>): (r: Result<seq<int>, ParseError>)
    ensures r.Success? <==> forall i :: 0 <= i < |es| ==> ParseEntry(es[i], parse).Success?
    ensures r.Success? ==> forall d :: d in r.value <==> exists i :: 0 <= i < |es| && Covers(es[i], parse, d)
  {
    if |es| == 0 then Success([])
    else
      match ParseEntry(es[0], parse)
      case Failure(e) => Failure(e)
      case Success(range) =>
        var tail := RangesDays(es[1..], parse);
        assert forall i :: 1 <= i < |es| ==> es[i] == es[1..][i - 1];
        match tail
        case Failure(e) => Failure(e)
        case Success(rest) =>
          ConsCovers(es, parse, rest);
          Success(DayRange(range.0, range.1) + rest)
  }

  lemma ConsCovers(es: seq<string>, parse: string -> Option<int>, rest: seq<int>)
    requires |es| > 0 && ParseEntry(es[0], parse).Success?
    requires forall d :: d in rest <==> exists i :: 0 <= i < |es| - 1 && Covers(es[1..][i], parse, d)
    ensures var range := ParseEntry(es[0], parse).value;
      forall d :: d in DayRange(range.0, range.1) + rest <==> exists i :: 0 <= i < |es| && Covers(es[i], parse, d)
  {
    var range := ParseEntry(es[0], parse).value;
    forall d ensures d in DayRange(range.0, range.1) + rest <==> exists i :: 0 <= i < |es| && Covers(es[i], parse, d) {
      if exists i :: 0 <= i < |es| && Covers(es[i], parse, d) {
        var i :| 0 <= i < |es| && Covers(es[i], parse, d);
        if i > 0 {
          assert Covers(es[1..][i - 1], parse, d);
        }
      }
      if d in rest {
        var i :| 0 <= i < |es| - 1 && Covers(es[1..][i], parse, d);
        assert Covers(es[i + 1], parse, d);
      }
    }
  }

  /** `get_target_days`: the days of every distinct entry, in order of the
      entries' first appearance. */
  function TargetDays(entries: seq<string>, parse: string -> Option<int>): (r: Result<seq<int>, ParseError>)
    ensures r.Success? <==> forall e :: e in entries ==> ParseEntry(e, parse).Success?
    ensures r.Success? ==> forall d :: d in r.value <==> exists e :: e in entries && Covers(e, parse, d)
  {
    var u := Unique(entries);
    var r := RangesDays(u, parse);
    assert forall e :: e in entries <==> exists i :: 0 <= i < |u| && u[i] == e;
    r
  }

  /** How many of the entries `es` cover day `d`. */
  function CoverCount(es: seq<string>, parse: string -> Option<int>, d: int): nat {
    if |es| == 0 then 0 else (if Covers(es[0], parse, d) then 1 else 0) + CoverCount(es[1..], parse, d)
  }

  /** A range lists each of its days once. */
  lemma {:induction false} DayRangeCounts(start: int, end: int)
    decreases end - start
    ensures forall d :: multiset(DayRange(start, end))[d] == if start <= d <= end then 1 else 0
  {
    if start <= end {
      var r, rest := DayRange(start, end), DayRange(start + 1, end);
      DayRangeCounts(start + 1, end);
      assert r == [start] + rest by {
        assert |r| == 1 + |rest|;
        forall i | 0 <= i < |r| ensures r[i] == ([start] + rest)[i] {
          if i > 0 {
            assert r[i - 1] < r[i] && (i == 1 || r[i - 2] < r[i - 1]);
          }
        }
      }
    }
  }

  /** The days of the entries, with multiplicity: a day occurs once per
      entry whose range covers it. */
  lemma {:induction false} RangesDaysCounts(es: seq<string>, parse: string -> Option<int>)
    requires forall i :: 0 <= i < |es| ==> ParseEntry(es[i], parse).Success?
    ensures RangesDays(es, parse).Success?
    ensures forall d :: multiset(RangesDays(es, parse).value)[d] == CoverCount(es, parse, d)
  {
    if |es| > 0 {
      RangesDaysCounts(es[1..], parse);
      var range := ParseEntry(es[0], parse).value;
      DayRangeCounts(range.0, range.1);
    }
  }

  /** `get_target_days` with multiplicity: a day occurs once per distinct
      entry whose range covers it, so overlapping ranges repeat the day. */
  lemma TargetDaysCounts(entries: seq<string>, parse: string -> Option<int>)
    requires forall e :: e in entries ==> ParseEntry(e, parse).Success?
    ensures TargetDays(entries, parse).Success?
    ensures forall d :: multiset(TargetDays(entries, parse).value)[d] == CoverCount(Unique(entries), parse, d)
  {
    RangesDaysCounts(Unique(entries), parse);
  }

  /** How many days entry `e` contributes: its range's length, none when
      it is inverted or does not parse. */
  function RangeLen(e: string, parse: string -> Option<int>): nat {
    var r := ParseEntry(e, parse);
    if r.Success? && r.value.0 <= r.value.1 then r.value.1 - r.value.0 + 1 else 0
  }

  /** Where entry `k`'s days begin: the total length of the ranges of the
      entries before it. */
  function Offset(es: seq<string>, parse: string -> Option<int>, k: nat): nat
    requires k <= |es|
  {
    if k == 0 then 0 else RangeLen(es[0], parse) + Offset(es[1..], parse, k - 1)
  }

  /** Each entry's block ends where the next one's begins, so the blocks
      follow one another in entry order with no gap. */
  lemma {:induction false} OffsetStep(es: seq<string>, parse: string -> Option<int>, k: nat)
    requires k < |es|
    ensures Offset(es, parse, k + 1) == Offset(es, parse, k) + RangeLen(es[k], parse)
  {
    if k > 0 {
      OffsetStep(es[1..], parse, k - 1);
      assert es[1..][k - 1] == es[k];
    }
  }

  /** `v` holds, from position `off` on, `len` consecutive days counting up
      from `start`. */
  predicate BlockAt(v: seq<int>, off: nat, start: int, len: nat) {
    && off + len <= |v|
    && forall j :: off <= j < off + len ==> v[j] == start + (j - off)
  }

  /** A block keeps its days when more days are put in front of it. */
  lemma BlockShift(head: seq<int>, rest: seq<int>, off: nat, start: int, len: nat)
    requires BlockAt(rest, off, start, len)
    ensures BlockAt(head + rest, |head| + off, start, len)
  {
  }

  /** A range is a block at the front of anything appended to it. */
  lemma RangeBlock(start: int, end: int, rest: seq<int>)
    ensures BlockAt(DayRange(start, end) + rest, 0, start, |DayRange(start, end)|)
  {
  }

  /** The days of the entries lie in one block per entry, in entry order;
      entry `k`'s block starts at `Offset(es, parse, k)` and counts up from
      its start day for the length of its range. */
  lemma {:induction false} RangesDaysLayout(es: seq<string>, parse: string -> Option<int>)
    requires forall i :: 0 <= i < |es| ==> ParseEntry(es[i], parse).Success?
    ensures RangesDays(es, parse).Success?
    ensures |RangesDays(es, parse).value| == Offset(es, parse, |es|)
    ensures forall k :: 0 <= k < |es| ==>
      BlockAt(RangesDays(es, parse).value, Offset(es, parse, k), ParseEntry(es[k], parse).value.0, RangeLen(es[k], parse))
  {
    if |es| > 0 {
      var t := es[1..];
      RangesDaysLayout(t, parse);
      var range := ParseEntry(es[0], parse).value;
      var head := DayRange(range.0, range.1);
      var rest := RangesDays(t, parse).value;
      assert RangesDays(es, parse).value == head + rest;
      forall k | 0 <= k < |es|
        ensures BlockAt(head + rest, Offset(es, parse, k), ParseEntry(es[k], parse).value.0, RangeLen(es[k], parse))
      {
        if k == 0 {
          RangeBlock(range.0, range.1, rest);
        } else {
          assert es[k] == t[k - 1];
          BlockShift(head, rest, Offset(t, parse, k - 1), ParseEntry(es[k], parse).value.0, RangeLen(es[k], parse));
        }
      }
    }
  }

  /** `get_target_days` in order: one block per distinct entry, in order of
      the entries' first appearance, each block its range ascending. */
  lemma TargetDaysLayout(entries: seq<string>, parse: string -> Option<int>)
    requires forall e :: e in entries ==> ParseEntry(e, parse).Success?
    ensures TargetDays(entries, parse).Success?
    ensures var u := Unique(entries);
      && |TargetDays(entries, parse).value| == Offset(u, parse, |u|)
      && forall k :: 0 <= k < |u| ==>
        BlockAt(TargetDays(entries, parse).value, Offset(u, parse, k), ParseEntry(u[k], parse).value.0, RangeLen(u[k], parse))
  {
    RangesDaysLayout(Unique(entries), parse);
  }

  lemma MulMonotone(n: nat, a: int, b: int)
    ensures a <= b ==> n * a <= n * b
  {
    if a <= b {
      assert n * b == n * a + n * (b - a);
    }
  }

  lemma DivBelow(i: nat, n: nat, m: nat)
    requires i < n * m
    ensures n > 0 && i / n < m
  {
    assert n != 0 by {
      assert 0 * m == 0;
    }
    MulMonotone(n, m, i / n);
  }

  /** Position `n * j`, for `n > 0`, starts the `j`-th block of `n`. */
  lemma DivOfMultiple(n: nat, j: int)
    requires n > 0
    ensures (n * j) / n == j
  {
    var q := (n * j) / n;
    assert n * (j - q) == (n * j) % n;
    MulMonotone(n, 1, j - q);
    MulMonotone(n, j - q, -1);
  }

  /** `np.repeat(days, n)`: each day `n` times in a row, in order. */
  function Repeat(days: seq<int>, n: nat): (r: seq<int>)
    ensures |r| == n * |days|
  {
    seq(n * |days|, i requires 0 <= i < n * |days| => DivBelow(i, n, |days|); days[i / n])
  }

  /** Each day of `Repeat(days, n)` is the day of its block of `n` positions,
      and every day occurs in it when `n > 0`. */
  lemma RepeatBlocks(days: seq<int>, n: nat)
    ensures forall i :: 0 <= i < n * |days| ==> n > 0 && i / n < |days| && Repeat(days, n)[i] == days[i / n]
    ensures forall x :: x in Repeat(days, n) <==> n > 0 && x in days
  {
    var r := Repeat(days, n);
    forall i | 0 <= i < n * |days| ensures n > 0 && i / n < |days| {
      DivBelow(i, n, |days|);
    }
    forall x | n > 0 && x in days ensures x in r {
      var j :| 0 <= j < |days| && days[j] == x;
      DivOfMultiple(n, j);
      MulMonotone(n, j + 1, |days|);
      assert r[n * j] == x;
    }
  }

  /** `fillna(0)` on both sums: a key without purchases on a day sold zero. */
  function ZeroFilled(r: AggRow): (z: AggRow)
    ensures z.date == r.date && z.key == r.key
    ensures z.fullPrice.Some? && z.fullDiscountPrice.Some?
    ensures r.fullPrice.Some? ==> z.fullPrice == r.fullPrice
    ensures r.fullDiscountPrice.Some? ==> z.fullDiscountPrice == r.fullDiscountPrice
    ensures r.fullPrice.None? ==> z.fullPrice == Some(0)
    ensures r.fullDiscountPrice.None? ==> z.fullDiscountPrice == Some(0)
  {
    r.(fullDiscountPrice := Some(r.fullDiscountPrice.GetOr(0)), fullPrice := Some(r.fullPrice.GetOr(0)))
  }

  /** Why `add_nans` raised. */
  datatype ExpandError =
    | BadOrder(cause: ParseError)                 // a forecast entry did not parse
    | LengthMismatch(rows: nat, needed: nat)      // fewer rows than placeholders to build
    | NothingToFill(fill: FillError)              // the combined table is empty

  /** The placeholder rows: row `i` copies the key of input row `i` and
      takes the day of block `i / n` of `np.repeat(days, n)`; both measures
      unset. */
  function Placeholders(agg: seq<AggRow>, days: seq<int>, n: nat): (p: seq<AggRow>)
    requires n * |days| <= |agg|
    ensures |p| == n * |days|
    ensures forall i :: 0 <= i < |p| ==>
      && p[i].key == agg[i].key && p[i].date == Repeat(days, n)[i]
      && p[i].fullDiscountPrice.None? && p[i].fullPrice.None?
  {
    var reps := Repeat(days, n);
    seq(|reps|, i requires 0 <= i < |reps| => AggRow(reps[i], agg[i].key, None, None))
  }

  /** The table `add_nans` hands to the filler: the zero-filled input
      followed by the placeholders. */
  function Expanded(agg: seq<AggRow>, days: seq<int>, n: nat): (e: seq<AggRow>)
    requires n * |days| <= |agg|
    ensures |e| == |agg| + n * |days|
    ensures forall i :: 0 <= i < |agg| ==> e[i] == ZeroFilled(agg[i])
    ensures forall i :: 0 <= i < n * |days| ==> e[|agg| + i] == Placeholders(agg, days, n)[i]
  {
    seq(|agg|, i requires 0 <= i < |agg| => ZeroFilled(agg[i])) + Placeholders(agg, days, n)
  }

  /** `add_nans`: parse the forecast order, build the placeholders, and fill
      gaps in the combined table from the year before. */
  function AddNans(agg: seq<AggRow>, entries: seq<string>, n: nat, parse: string -> Option<int>)
    : (r: Result<seq<AggRow>, ExpandError>)
    ensures TargetDays(entries, parse).Failure? ==> r == Failure(BadOrder(TargetDays(entries, parse).error))
    ensures r.Success? <==>
      TargetDays(entries, parse).Success? && n * |TargetDays(entries, parse).value| <= |agg| && |agg| > 0
    ensures r.Success? ==>
      var e := Expanded(agg, TargetDays(entries, parse).value, n);
      && SortedByDate(r.value)
      && multiset(r.value) == multiset(e) + multiset(Copies(e, MissingDays(e)))
  {
    match TargetDays(entries, parse)
    case Failure(e) => Failure(BadOrder(e))
    case Success(days) =>
      if |agg| < n * |days| then Failure(LengthMismatch(|agg|, n * |days|))
      else
        match CopyMissingDays(Expanded(agg, days, n))
        case Failure(e) => Failure(NothingToFill(e))
        case Success(full) => Success(full)
  }

  /** When `add_nans` goes through: the order parses, there are enough rows
      to relabel, and the table is not empty. */
  predicate AddNansApplies(agg: seq<AggRow>, entries: seq<string>, n: nat, parse: string -> Option<int>) {
    TargetDays(entries, parse).Success? && n * |TargetDays(entries, parse).value| <= |agg| && |agg| > 0
  }

  lemma InAddNans(agg: seq<AggRow>, entries: seq<string>, n: nat, parse: string -> Option<int>, x: AggRow)
    requires AddNansApplies(agg, entries, n, parse)
    ensures var e := Expanded(agg, TargetDays(entries, parse).value, n);
      x in AddNans(agg, entries, n, parse).value <==> x in e || x in Copies(e, MissingDays(e))
  {
    assert x in AddNans(agg, entries, n, parse).value <==> x in multiset(AddNans(agg, entries, n, parse).value);
  }

  /** The history survives `add_nans`: every input row is present with its
      null sums replaced by zero. */
  lemma AddNansKeepsHistory(agg: seq<AggRow>, entries: seq<string>, n: nat, parse: string -> Option<int>)
    requires AddNansApplies(agg, entries, n, parse)
    ensures AddNans(agg, entries, n, parse).Success?
    ensures forall i :: 0 <= i < |agg| ==> ZeroFilled(agg[i]) in AddNans(agg, entries, n, parse).value
  {
    var e := Expanded(agg, TargetDays(entries, parse).value, n);
    forall i | 0 <= i < |agg| ensures ZeroFilled(agg[i]) in AddNans(agg, entries, n, parse).value {
      assert e[i] in e;
      InAddNans(agg, entries, n, parse, ZeroFilled(agg[i]));
    }
  }

  /** Every requested day gets a placeholder row: the key of the input row at
      the same position, both sums unset. */
  lemma AddNansCoversTargetDays(agg: seq<AggRow>, entries: seq<string>, n: nat, parse: string -> Option<int>)
    requires AddNansApplies(agg, entries, n, parse) && n > 0
    ensures AddNans(agg, entries, n, parse).Success?
    ensures forall d :: d in TargetDays(entries, parse).value ==>
      exists i :: 0 <= i < |agg| && AggRow(d, agg[i].key, None, None) in AddNans(agg, entries, n, parse).value
  {
    var days := TargetDays(entries, parse).value;
    var e := Expanded(agg, days, n);
    var p := Placeholders(agg, days, n);
    RepeatBlocks(days, n);
    forall d | d in days
      ensures exists i :: 0 <= i < |agg| && AggRow(d, agg[i].key, None, None) in AddNans(agg, entries, n, parse).value
    {
      var i :| 0 <= i < |Repeat(days, n)| && Repeat(days, n)[i] == d;
      assert p[i] == AggRow(d, agg[i].key, None, None);
      assert e[|agg| + i] == p[i];
      InAddNans(agg, entries, n, parse, p[i]);
    }
  }

  /** In the table handed to the filler, unset sums mark placeholders. */
  lemma ExpandedUnset(agg: seq<AggRow>, days: seq<int>, n: nat, k: nat)
    requires n * |days| <= |agg| && k < |agg| + n * |days|
    ensures var r := Expanded(agg, days, n)[k];
      r.fullPrice.None? || r.fullDiscountPrice.None? ==> r.date in days
  {
    var e := Expanded(agg, days, n);
    if k >= |agg| {
      var j := k - |agg|;
      assert e[|agg| + j] == Placeholders(agg, days, n)[j];
      RepeatBlocks(days, n);
      assert Repeat(days, n)[j] in Repeat(days, n);
    }
  }

  /** Unset sums after `add_nans` occur only on requested days, or on the
      day a year after one (a placeholder copied by the filler): real history
      always carries numbers. */
  lemma UnsetOnlyOnTargetDays(agg: seq<AggRow>, entries: seq<string>, n: nat, parse: string -> Option<int>)
    requires AddNansApplies(agg, entries, n, parse)
    ensures AddNans(agg, entries, n, parse).Success?
    ensures forall x :: x in AddNans(agg, entries, n, parse).value && (x.fullPrice.None? || x.fullDiscountPrice.None?) ==>
      x.date in TargetDays(entries, parse).value || x.date - YearOffset in TargetDays(entries, parse).value
  {
    var days := TargetDays(entries, parse).value;
    var e := Expanded(agg, days, n);
    forall x | x in AddNans(agg, entries, n, parse).value && (x.fullPrice.None? || x.fullDiscountPrice.None?)
      ensures x.date in days || x.date - YearOffset in days
    {
      InAddNans(agg, entries, n, parse, x);
      if x in e {
        var k :| 0 <= k < |e| && e[k] == x;
        ExpandedUnset(agg, days, n, k);
      } else {
        var r :| r in e && r.date + YearOffset in MissingDays(e) && x == Shifted(r);
        var k :| 0 <= k < |e| && e[k] == r;
        ExpandedUnset(agg, days, n, k);
      }
    }
  }

}

=== FILE: naming.dfy ===
/** The column labels of the wide table built by create_time_series.py:
    each series is labelled `f'{mar:.0f}-{cat:.0f}-{ven:.0f}-{disc}'`, where
    an absent id is NaN and prints as `nan`. */
module Naming {
  import opened Wrappers
  import opened Records

  /** One key of `create_column_names`: a measure and the (market, category,
      vendor) triple, `None` where the source puts NaN. */
  datatype Column = Column(measure: Measure, market: Option<int>, category: Option<int>, vendor: Option<int>)

  predicate IsDigit(c: char) {
    '0' <= c <= '9'
  }

  predicate AllDigits(s: string) {
    forall i :: 0 <= i < |s| ==> IsDigit(s[i])
  }

  function DigitChar(d: nat): (c: char)
    requires d < 10
    ensures IsDigit(c) && DigitValue(c) == d
  {
    (48 + d) as char
  }

  function DigitValue(c: char): nat
    requires IsDigit(c)
  {
    c as int - 48
  }

  /** Decimal digits of `n`, most significant first, no leading zeros. */
  function NatText(n: nat): (s: string)
    ensures |s| > 0 && AllDigits(s)
    ensures |s| == 1 <==> n < 10
    ensures s[0] == '0' <==> n == 0
    ensures |s| > 1 ==> s[0] != '0'
  {
    if n < 10 then [DigitChar(n)] else NatText(n / 10) + [DigitChar(n % 10)]
  }

  /** The number a string of decimal digits denotes. */
  function DigitsValue(s: string): nat
    requires AllDigits(s)
  {
    if |s| == 0 then 0 else DigitsValue(s[..|s| - 1]) * 10 + DigitValue(s[|s| - 1])
  }

  /** Reading the digits back gives the number. */
  lemma {:induction false} NatTextValue(n: nat)
    ensures DigitsValue(NatText(n)) == n
  {
    if n >= 10 {
      NatTextValue(n / 10);
      var s := NatText(n);
      assert s[..|s| - 1] == NatText(n / 10);
    }
  }

  /** The decimal text is the only digit string without a leading zero
      that denotes its number. */
  lemma {:induction false} NatTextCanonical(t: string)
    requires |t| > 0 && AllDigits(t) && (|t| > 1 ==> t[0] != '0')
    ensures NatText(DigitsValue(t)) == t
  {
    var p, c := t[..|t| - 1], t[|t| - 1];
    var d := DigitValue(c);
    assert DigitChar(d) == c;
    if |t| > 1 {
      assert p[0] == t[0];
      NatTextCanonical(p);
      var m := DigitsValue(p);
      assert m != 0;
      assert (m * 10 + d) / 10 == m && (m * 10 + d) % 10 == d;
      assert t == p + [c];
    }
  }

  /** `format(x, '.0f')` of an integral id: `nan` for NaN, otherwise the
      decimal with a leading minus sign when negative. */
  function IdText(x: Option<int>): (s: string)
    ensures |s| > 0 && '-' !in s[1..] && (x.None? || x.value >= 0 ==> '-' !in s)
    ensures x.None? ==> s == "nan"
    ensures x.Some? && x.value >= 0 ==> AllDigits(s) && (s[0] == '0' <==> x.value == 0)
    ensures x.Some? && x.value < 0 ==> |s| > 1 && s[0] == '-' && AllDigits(s[1..]) && s[1] != '0'
  {
    match x
    case None => "nan"
    case Some(v) =>
      if v < 0 then
        var t := NatText(-v);
        assert ("-" + t)[1..] == t;
        "-" + t
      else NatText(v)
  }

  function MeasureName(m: Measure): string {
    match m
    case FullDiscountPrice => "full_discount_price"
    case FullPrice => "full_price"
  }

  /** The label of a series. */
  function ColumnName(c: Column): string {
    IdText(c.market) + "-" + IdText(c.category) + "-" + IdText(c.vendor) + "-" + MeasureName(c.measure)
  }

  /** Position of the first `-` in `s`, or `|s|` when there is none. */
  function DashIndex(s: string): (k: nat)
    ensures k <= |s|
    ensures forall i :: 0 <= i < k ==> s[i] != '-'
    ensures k < |s| ==> s[k] == '-'
  {
    if |s| == 0 || s[0] == '-' then 0 else 1 + DashIndex(s[1..])
  }

  /** Reads a run of digits ended by a dash: its value and what follows the
      dash. */
  function ReadNumber(s: string): Option<(nat, string)> {
    var k := DashIndex(s);
    if k == 0 || k == |s| || !AllDigits(s[..k]) then None
    else Some((DigitsValue(s[..k]), s[k + 1..]))
  }

  /** Reads one id field and its trailing dash. */
  function ReadField(s: string): Option<(Option<int>, string)> {
    if |s| >= 4 && s[..4] == "nan-" then Some((None, s[4..]))
    else if |s| > 0 && s[0] == '-' then
      match ReadNumber(s[1..])
      case None => None
      case Some((v, rest)) => Some((Some(-(v as int)), rest))
    else
      match ReadNumber(s)
      case None => None
      case Some((v, rest)) => Some((Some(v), rest))
  }

  function MeasureNamed(s: string): Option<Measure> {
    if s == "full_discount_price" then Some(FullDiscountPrice)
    else if s == "full_price" then Some(FullPrice)
    else None
  }

  /** Recovers the column a label was made from. */
  function ParseColumnName(s: string): Option<Column> {
    match ReadField(s)
    case None => None
    case Some((mar, s1)) =>
      match ReadField(s1)
      case None => None
      case Some((cat, s2)) =>
        match ReadField(s2)
        case None => None
        case Some((ven, s3)) =>
          match MeasureNamed(s3)
          case None => None
          case Some(m) => Some(Column(m, mar, cat, ven))
  }

  lemma ReadNumberOf(n: nat, rest: string)
    ensures ReadNumber(NatText(n) + "-" + rest) == Some((n, rest))
  {
    var t := NatText(n);
    var s := t + "-" + rest;
    var k := DashIndex(s);
    assert s[|t|] == '-';
    assert k == |t|;
    assert s[..k] == t;
    assert s[k + 1..] == rest;
    NatTextValue(n);
  }

  lemma ReadFieldOf(x: Option<int>, rest: string)
    ensures ReadField(IdText(x) + "-" + rest) == Some((x, rest))
  {
    var s := IdText(x) + "-" + rest;
    match x
    case None =>
      assert s == "nan-" + rest;
      assert s[..4] == "nan-";
      assert s[4..] == rest;
    case Some(v) =>
      if v < 0 {
        var t := NatText(-v);
        assert s == "-" + (t + "-" + rest);
        assert s[0] == '-' && (|s| >= 4 ==> s[..4] != "nan-") by {
          assert |s| >= 4 ==> s[..4][0] == '-';
        }
        assert s[1..] == t + "-" + rest;
        ReadNumberOf(-v, rest);
      } else {
        var t := NatText(v);
        assert s == t + "-" + rest;
        assert s[0] == t[0] && IsDigit(s[0]);
        assert |s| >= 4 ==> s[..4] != "nan-" by {
          assert |s| >= 4 ==> s[..4][0] == t[0];
        }
        ReadNumberOf(v, rest);
      }
  }

  /** Labels are read back to the column they name. */
  lemma ColumnNameRoundTrip(c: Column)
    ensures ParseColumnName(ColumnName(c)) == Some(c)
  {
    var a, b, v, m := IdText(c.market), IdText(c.category), IdText(c.vendor), MeasureName(c.measure);
    var s2 := v + "-" + m;
    var s1 := b + "-" + s2;
    assert ColumnName(c) == a + "-" + s1;
    ReadFieldOf(c.market, s1);
    ReadFieldOf(c.category, s2);
    ReadFieldOf(c.vendor, m);
  }

  /** Distinct columns carry distinct labels, so the wide table never holds
      two series under one name. */
  lemma ColumnNameInjective(c: Column, d: Column)
    requires ColumnName(c) == ColumnName(d)
    ensures c == d
  {
    ColumnNameRoundTrip(c);
    ColumnNameRoundTrip(d);
  }
}

=== FILE: pivot.dfy ===
/** `create_column_names` and `dataset_to_timeseries` of
    create_time_series.py: one column per (measure, key) present in the
    table, each holding that key's daily values, outer-joined on the day. */
module Pivot {
  import opened Wrappers
  import opened Sequences
  import opened Records
  import opened Naming

  /** The column of measure `m` that holds the series of key `k`. */
  function ColumnFor(m: Measure, k: Key): Column {
    Column(m, MarketField(k), CategoryField(k), VendorField(k))
  }

  /** The key a column selects (`Total` when all three ids are NaN). */
  function KeyOf(c: Column): Key {
    if c.market.Some? then Market(c.market.value)
    else if c.category.Some? then Category(c.category.value)
    else if c.vendor.Some? then Vendor(c.vendor.value)
    else Total
  }

  lemma KeyOfColumnFor(m: Measure, k: Key)
    ensures KeyOf(ColumnFor(m, k)) == k
  {
  }

  /** Whether key `k` is one of those the id lists ask for. */
  predicate KeyListed(k: Key, mars: seq<int>, cats: seq<int>, vens: seq<int>) {
    match k
    case Total => true
    case Market(x) => x in mars
    case Category(x) => x in cats
    case Vendor(x) => x in vens
  }

  /** The columns of one measure, in the order of the key layout. */
  function MeasureColumns(m: Measure, ks: seq<Key>): (cs: seq<Column>)
    ensures |cs| == |ks|
    ensures forall i :: 0 <= i < |ks| ==> cs[i] == ColumnFor(m, ks[i])
  {
    seq(|ks|, i requires 0 <= i < |ks| => ColumnFor(m, ks[i]))
  }

  /** `create_column_names`: for the discount price and then the full price,
      a column per market, per category, per vendor, and the total; dict
      keys, so a repeated id keeps its first place only. */
  function CreateColumnNames(mars: seq<int>, cats: seq<int>, vens: seq<int>): (cols: seq<Column>)
    ensures Distinct(cols)
  {
    var ks := KeyLayout(mars, cats, vens);
    Unique(MeasureColumns(FullDiscountPrice, ks) + MeasureColumns(FullPrice, ks))
  }

  lemma InLayout(k: Key, mars: seq<int>, cats: seq<int>, vens: seq<int>)
    ensures k in KeyLayout(mars, cats, vens) <==> KeyListed(k, mars, cats, vens)
  {
    var ks := KeyLayout(mars, cats, vens);
    KeyLayoutBlocks(mars, cats, vens);
    if KeyListed(k, mars, cats, vens) {
      match k
      case Total => assert ks[|ks| - 1] == k;
      case Market(x) =>
        var i :| 0 <= i < |mars| && mars[i] == x;
        assert ks[i] == k;
      case Category(x) =>
        var i :| 0 <= i < |cats| && cats[i] == x;
        assert ks[|mars| + i] == k;
      case Vendor(x) =>
        var i :| 0 <= i < |vens| && vens[i] == x;
        assert ks[|mars| + |cats| + i] == k;
    }
    if k in ks {
      var i :| 0 <= i < |ks| && ks[i] == k;
      if i < |mars| {
        assert mars[i] in mars;
      } else if i < |mars| + |cats| {
        assert cats[i - |mars|] in cats;
      } else if i < |mars| + |cats| + |vens| {
        assert vens[i - |mars| - |cats|] in vens;
      }
    }
  }

  /** The columns are exactly the (measure, key) pairs whose key the id
      lists ask for, plus the two totals. */
  lemma CreateColumnNamesMembers(mars: seq<int>, cats: seq<int>, vens: seq<int>, c: Column)
    ensures c in CreateColumnNames(mars, cats, vens) <==>
      c == ColumnFor(c.measure, KeyOf(c)) && KeyListed(KeyOf(c), mars, cats, vens)
  {
    var ks := KeyLayout(mars, cats, vens);
    var raw := MeasureColumns(FullDiscountPrice, ks) + MeasureColumns(FullPrice, ks);
    var k := KeyOf(c);
    InLayout(k, mars, cats, vens);
    if c in raw {
      var i :| 0 <= i < |raw| && raw[i] == c;
      if i < |ks| {
        KeyOfColumnFor(FullDiscountPrice, ks[i]);
      } else {
        KeyOfColumnFor(FullPrice, ks[i - |ks|]);
        assert raw[i] == ColumnFor(FullPrice, ks[i - |ks|]);
      }
    }
    if c == ColumnFor(c.measure, k) && k in ks {
      var i :| 0 <= i < |ks| && ks[i] == k;
      if c.measure == FullDiscountPrice {
        assert raw[i] == c;
      } else {
        assert raw[|ks| + i] == c;
      }
    }
  }

  /** Over a duplicate-free key list the two measure blocks share no
      column. */
  lemma MeasureBlocksDistinct(ks: seq<Key>)
    requires Distinct(ks)
    ensures Distinct(MeasureColumns(FullDiscountPrice, ks) + MeasureColumns(FullPrice, ks))
  {
    var a, b := MeasureColumns(FullDiscountPrice, ks), MeasureColumns(FullPrice, ks);
    var raw := a + b;
    forall i, j | 0 <= i < j < |raw| ensures raw[i] != raw[j] {
      if j < |ks| {
        KeyOfColumnFor(FullDiscountPrice, ks[i]);
        KeyOfColumnFor(FullDiscountPrice, ks[j]);
      } else if i >= |ks| {
        assert raw[i] == b[i - |ks|] && raw[j] == b[j - |ks|];
        KeyOfColumnFor(FullPrice, ks[i - |ks|]);
        KeyOfColumnFor(FullPrice, ks[j - |ks|]);
      } else {
        assert raw[j] == b[j - |ks|];
      }
    }
  }

  /** Over a duplicate-free key list nothing collapses: the discount-price
      block, then the full-price block, both in key order. */
  lemma MeasureBlocksLayout(ks: seq<Key>)
    requires Distinct(ks)
    ensures var cols := Unique(MeasureColumns(FullDiscountPrice, ks) + MeasureColumns(FullPrice, ks));
      && |cols| == 2 * |ks|
      && forall i :: 0 <= i < |ks| ==>
           cols[i] == ColumnFor(FullDiscountPrice, ks[i]) && cols[|ks| + i] == ColumnFor(FullPrice, ks[i])
  {
    var a, b := MeasureColumns(FullDiscountPrice, ks), MeasureColumns(FullPrice, ks);
    MeasureBlocksDistinct(ks);
    UniqueOfDistinct(a + b);
    forall i | 0 <= i < |ks|
      ensures (a + b)[i] == ColumnFor(FullDiscountPrice, ks[i]) && (a + b)[|ks| + i] == ColumnFor(FullPrice, ks[i])
    {
      assert (a + b)[|ks| + i] == b[i];
    }
  }

  /** With duplicate-free id lists no key collapses: the discount-price block
      lists the keys in layout order (markets, categories, vendors, total),
      the full-price block repeats it, and each block ends with the total. */
  lemma CreateColumnNamesLayout(mars: seq<int>, cats: seq<int>, vens: seq<int>)
    requires Distinct(mars) && Distinct(cats) && Distinct(vens)
    ensures var cols := CreateColumnNames(mars, cats, vens);
      var half := |mars| + |cats| + |vens| + 1;
      && |cols| == 2 * half
      && (forall i :: 0 <= i < half ==>
            && cols[i] == ColumnFor(FullDiscountPrice, KeyLayout(mars, cats, vens)[i])
            && cols[i].measure == FullDiscountPrice && cols[half + i] == cols[i].(measure := FullPrice))
      && cols[half - 1] == Column(FullDiscountPrice, None, None, None)
  {
    var ks := KeyLayout(mars, cats, vens);
    KeyLayoutBlocks(mars, cats, vens);
    KeyLayoutDistinct(mars, cats, vens);
    MeasureBlocksLayout(ks);
  }

  /** A null in the column means "must be null" (`isnull()`), a number
      means "must equal it". */
  predicate FieldMatches(want: Option<int>, have: Option<int>) {
    if want.None? then have.None? else have == want
  }

  /** The row filter `expr1 & expr2 & expr3` of one column. */
  predicate Matches(c: Column, r: AggRow) {
    && FieldMatches(c.market, MarketField(r.key))
    && FieldMatches(c.category, CategoryField(r.key))
    && FieldMatches(c.vendor, VendorField(r.key))
  }

  /** The filter of a key's column picks exactly the rows of that key. */
  lemma MatchesIsKeyEquality(m: Measure, k: Key, r: AggRow)
    ensures Matches(ColumnFor(m, k), r) <==> r.key == k
  {
  }

  /** Rows picked by one column share a key. */
  lemma MatchesSameKey(c: Column, r: AggRow, s: AggRow)
    requires Matches(c, r) && Matches(c, s)
    ensures r.key == s.key
  {
  }

  /** The id a key carries in dimension `d` (`market_id` etc.), null when
      the key is not of that dimension. */
  function DimField(d: Dim, k: Key): (f: Option<int>)
    ensures forall x :: f == Some(x) <==> k == KeyFor(d, x)
  {
    match d
    case MarketDim => MarketField(k)
    case CategoryDim => CategoryField(k)
    case VendorDim => VendorField(k)
  }

  /** Each row's id in dimension `d`, null where the row's key is of
      another dimension (the `market_id` etc. column of the long table). */
  function DimFields(rows: seq<AggRow>, d: Dim): (f: seq<Option<int>>)
    ensures |f| == |rows| && forall i :: 0 <= i < |rows| ==> f[i] == DimField(d, rows[i].key)
  {
    seq(|rows|, i requires 0 <= i < |rows| => DimField(d, rows[i].key))
  }

  /** The distinct non-null ids of one dimension among the rows' keys, in
      order of first appearance (`unique()` with NaN dropped). */
  function IdsOf(rows: seq<AggRow>, d: Dim): (ids: seq<int>)
    ensures Distinct(ids)
    ensures forall x :: x in ids <==> exists r :: r in rows && r.key == KeyFor(d, x)
    ensures forall x :: x in ids <==> Some(x) in DimFields(rows, d)
  {
    var fields := DimFields(rows, d);
    var u := Unique(fields);
    ValuesDistinct(u);
    forall x ensures Some(x) in fields <==> exists r :: r in rows && r.key == KeyFor(d, x) {
      if Some(x) in fields {
        var i :| 0 <= i < |rows| && fields[i] == Some(x);
        assert rows[i] in rows;
      }
      if r :| r in rows && r.key == KeyFor(d, x) {
        var i :| 0 <= i < |rows| && rows[i] == r;
        assert fields[i] == Some(x);
      }
    }
    Values(u)
  }

  /** `IdsOf` lists the ids in the order the rows first carry them. */
  lemma IdsOfFirstAppearance(rows: seq<AggRow>, d: Dim, i: nat, j: nat)
    requires i < j < |IdsOf(rows, d)|
    ensures Some(IdsOf(rows, d)[i]) in DimFields(rows, d) && Some(IdsOf(rows, d)[j]) in DimFields(rows, d)
    ensures FirstIndex(DimFields(rows, d), Some(IdsOf(rows, d)[i]))
      < FirstIndex(DimFields(rows, d), Some(IdsOf(rows, d)[j]))
  {
    var fields := DimFields(rows, d);
    var u := Unique(fields);
    var ids := IdsOf(rows, d);
    assert ids == Values(u);
    ValuesOrder(u, i, j);
    var p, q := FirstIndex(u, Some(ids[i])), FirstIndex(u, Some(ids[j]));
    UniqueFirstAppearanceOrder(fields, p, q);
  }

  /** Why the series cannot be set side by side: one column has two rows on
      the same day, and the join needs a day index without repeats. */
  datatype PivotError = RepeatedDay(column: Column, day: int)

  /** No two rows picked by column `c` fall on the same day. */
  predicate OneRowPerDay(rows: seq<AggRow>, c: Column) {
    forall i, j :: 0 <= i < j < |rows| && Matches(c, rows[i]) && Matches(c, rows[j]) ==>
      rows[i].date != rows[j].date
  }

  lemma OneRowPerDaySnoc(rows: seq<AggRow>, c: Column)
    requires |rows| > 0
    ensures var p, x := rows[..|rows| - 1], rows[|rows| - 1];
      OneRowPerDay(rows, c) <==>
        OneRowPerDay(p, c) && (Matches(c, x) ==> forall y :: y in p && Matches(c, y) ==> y.date != x.date)
  {
    var p, x := rows[..|rows| - 1], rows[|rows| - 1];
    if OneRowPerDay(rows, c) && Matches(c, x) {
      forall y | y in p && Matches(c, y) ensures y.date != x.date {
        var i :| 0 <= i < |p| && p[i] == y;
        assert rows[i] == y;
      }
    }
    if !OneRowPerDay(rows, c) {
      var i, j :| 0 <= i < j < |rows| && Matches(c, rows[i]) && Matches(c, rows[j]) && rows[i].date == rows[j].date;
      if j < |rows| - 1 {
        assert p[i] == rows[i] && p[j] == rows[j];
      } else {
        assert p[i] in p;
      }
    }
  }

  /** The series of column `c`: the picked rows' values of the column's
      measure, indexed by day. */
  function SeriesOf(rows: seq<AggRow>, c: Column): (r: Result<map<int, Option<int>>, PivotError>)
    ensures r.Success? <==> OneRowPerDay(rows, c)
    ensures r.Success? ==> forall d :: d in r.value <==> exists x :: x in rows && Matches(c, x) && x.date == d
    ensures r.Success? ==> forall x :: x in rows && Matches(c, x) ==> r.value[x.date] == MeasureOf(x, c.measure)
  {
    if |rows| == 0 then Success(map[])
    else
      var p, x := rows[..|rows| - 1], rows[|rows| - 1];
      OneRowPerDaySnoc(rows, c);
      assert forall y :: y in rows <==> y in p || y == x;
      var prev :- SeriesOf(p, c);
      if !Matches(c, x) then Success(prev)
      else if x.date in prev then Failure(RepeatedDay(c, x.date))
      else Success(prev[x.date := MeasureOf(x, c.measure)])
  }

  /** The series of every column, in column order. */
  function AllSeries(rows: seq<AggRow>, cols: seq<Column>): (r: Result<seq<map<int, Option<int>>>, PivotError>)
    ensures r.Success? <==> forall j :: 0 <= j < |cols| ==> OneRowPerDay(rows, cols[j])
    ensures r.Success? ==> |r.value| == |cols|
    ensures r.Success? ==> forall j :: 0 <= j < |cols| ==> SeriesOf(rows, cols[j]) == Success(r.value[j])
  {
    if |cols| == 0 then Success([])
    else
      var init :- AllSeries(rows, cols[..|cols| - 1]);
      var s :- SeriesOf(rows, cols[|cols| - 1]);
      Success(init + [s])
  }

  /** The outer join's day index: every day some series has. */
  function DaysOf(ss: seq<map<int, Option<int>>>): (ds: set<int>)
    ensures forall d :: d in ds <==> exists j :: 0 <= j < |ss| && d in ss[j]
  {
    if |ss| == 0 then {}
    else
      var p := ss[..|ss| - 1];
      assert forall j :: 0 <= j < |p| ==> p[j] == ss[j];
      DaysOf(p) + ss[|ss| - 1].Keys
  }

  /** The wide table: its columns, the joined day index, and one series per
      column. */
  datatype Wide = Wide(columns: seq<Column>, days: set<int>, series: seq<map<int, Option<int>>>)

  /** A cell of the joined table: NaN (`None`) where the column's series has
      no row that day. */
  function Cell(w: Wide, j: nat, d: int): Option<int>
    requires j < |w.series|
  {
    if d in w.series[j] then w.series[j][d] else None
  }

  /** The columns `dataset_to_timeseries` asks for: the ids seen in the table. */
  function DatasetColumns(rows: seq<AggRow>): seq<Column> {
    CreateColumnNames(IdsOf(rows, MarketDim), IdsOf(rows, CategoryDim), IdsOf(rows, VendorDim))
  }

  /** `dataset_to_timeseries`: one series per column, outer-joined on the day. */
  function DatasetToTimeseries(rows: seq<AggRow>): (r: Result<Wide, PivotError>)
    ensures r.Success? ==> |r.value.series| == |r.value.columns| && Distinct(r.value.columns)
    ensures r.Success? ==> forall j, d :: 0 <= j < |r.value.series| && d in r.value.series[j] ==> d in r.value.days
    ensures r.Success? ==> r.value.columns == DatasetColumns(rows)
  {
    var cols := DatasetColumns(rows);
    var ss :- AllSeries(rows, cols);
    Success(Wide(cols, DaysOf(ss), ss))
  }

  /** The table's columns: the discount block over the market, category and
      vendor ids seen in the rows (each in first-appearance order) and then
      the total, followed by the price block mirroring it. */
  lemma TimeseriesColumns(rows: seq<AggRow>)
    ensures var r := DatasetToTimeseries(rows);
      r.Success? ==>
        var mars, cats, vens := IdsOf(rows, MarketDim), IdsOf(rows, CategoryDim), IdsOf(rows, VendorDim);
        var ks := KeyLayout(mars, cats, vens);
        var half := |mars| + |cats| + |vens| + 1;
        && |r.value.columns| == 2 * half
        && (forall i :: 0 <= i < half ==>
              && r.value.columns[i] == ColumnFor(FullDiscountPrice, ks[i])
              && r.value.columns[half + i] == ColumnFor(FullPrice, ks[i]))
  {
    var mars, cats, vens := IdsOf(rows, MarketDim), IdsOf(rows, CategoryDim), IdsOf(rows, VendorDim);
    CreateColumnNamesLayout(mars, cats, vens);
  }

  /** Every row's key has a column of each measure. */
  lemma RowHasColumns(rows: seq<AggRow>, m: Measure, x: AggRow)
    requires x in rows
    ensures ColumnFor(m, x.key) in DatasetColumns(rows)
  {
    var c := ColumnFor(m, x.key);
    var mars, cats, vens := IdsOf(rows, MarketDim), IdsOf(rows, CategoryDim), IdsOf(rows, VendorDim);
    KeyOfColumnFor(m, x.key);
    assert KeyListed(x.key, mars, cats, vens) by {
      match x.key {
        case Total =>
        case Market(v) => assert x.key == KeyFor(MarketDim, v);
        case Category(v) => assert x.key == KeyFor(CategoryDim, v);
        case Vendor(v) => assert x.key == KeyFor(VendorDim, v);
      }
    }
    CreateColumnNamesMembers(mars, cats, vens, c);
  }

  /** Every column of the table is the column of some key. */
  lemma ColumnIsKeyColumn(rows: seq<AggRow>, c: Column)
    ensures c in DatasetColumns(rows) ==> c == ColumnFor(c.measure, KeyOf(c))
  {
    CreateColumnNamesMembers(IdsOf(rows, MarketDim), IdsOf(rows, CategoryDim), IdsOf(rows, VendorDim), c);
  }

  /** No key has two rows on one day. */
  predicate OneRowPerKeyAndDay(rows: seq<AggRow>) {
    forall i, j :: 0 <= i < j < |rows| && rows[i].key == rows[j].key ==> rows[i].date != rows[j].date
  }

  /** The join fails exactly when some key has two rows on one day. */
  lemma TimeseriesSucceedsIff(rows: seq<AggRow>)
    ensures DatasetToTimeseries(rows).Success? <==> OneRowPerKeyAndDay(rows)
  {
    var cols := DatasetColumns(rows);
    if OneRowPerKeyAndDay(rows) {
      forall j | 0 <= j < |cols| ensures OneRowPerDay(rows, cols[j]) {
        forall a, b | 0 <= a < b < |rows| && Matches(cols[j], rows[a]) && Matches(cols[j], rows[b])
          ensures rows[a].date != rows[b].date
        {
          MatchesSameKey(cols[j], rows[a], rows[b]);
        }
      }
    } else {
      var a, b :| 0 <= a < b < |rows| && rows[a].key == rows[b].key && rows[a].date == rows[b].date;
      var c := ColumnFor(FullDiscountPrice, rows[a].key);
      RowHasColumns(rows, FullDiscountPrice, rows[a]);
      MatchesIsKeyEquality(FullDiscountPrice, rows[a].key, rows[a]);
      MatchesIsKeyEquality(FullDiscountPrice, rows[a].key, rows[b]);
      var j :| 0 <= j < |cols| && cols[j] == c;
      assert !OneRowPerDay(rows, cols[j]);
    }
  }

  /** Every row lands in the table: the column of its key and of each
      measure holds the row's value on the row's day. */
  lemma TimeseriesHoldsEveryRow(rows: seq<AggRow>, m: Measure, x: AggRow)
    requires OneRowPerKeyAndDay(rows) && x in rows
    ensures DatasetToTimeseries(rows).Success?
    ensures var w := DatasetToTimeseries(rows).value;
      exists j :: 0 <= j < |w.columns| && w.columns[j] == ColumnFor(m, x.key)
        && x.date in w.series[j] && Cell(w, j, x.date) == MeasureOf(x, m)
  {
    TimeseriesSucceedsIff(rows);
    var w := DatasetToTimeseries(rows).value;
    RowHasColumns(rows, m, x);
    var j :| 0 <= j < |w.columns| && w.columns[j] == ColumnFor(m, x.key);
    MatchesIsKeyEquality(m, x.key, x);
    assert SeriesOf(rows, w.columns[j]) == Success(w.series[j]);
  }

  /** Conversely, every value in the table comes from the row of the
      column's key on that day. */
  lemma TimeseriesCellFromRow(rows: seq<AggRow>)
    requires OneRowPerKeyAndDay(rows)
    ensures DatasetToTimeseries(rows).Success?
    ensures var w := DatasetToTimeseries(rows).value;
      forall j, d :: 0 <= j < |w.series| && d in w.series[j] ==>
        exists x :: x in rows && x.key == KeyOf(w.columns[j]) && x.date == d
          && Cell(w, j, d) == MeasureOf(x, w.columns[j].measure)
  {
    TimeseriesSucceedsIff(rows);
    var w := DatasetToTimeseries(rows).value;
    forall j, d | 0 <= j < |w.series| && d in w.series[j]
      ensures exists x ::
        x in rows && x.key == KeyOf(w.columns[j]) && x.date == d && Cell(w, j, d) == MeasureOf(x, w.columns[j].measure)
    {
      var c := w.columns[j];
      assert SeriesOf(rows, c) == Success(w.series[j]);
      var x :| x in rows && Matches(c, x) && x.date == d;
      ColumnIsKeyColumn(rows, c);
      MatchesIsKeyEquality(c.measure, KeyOf(c), x);
    }
  }

  /** The joined day index is the set of the rows' days. */
  lemma TimeseriesDays(rows: seq<AggRow>)
    requires OneRowPerKeyAndDay(rows)
    ensures DatasetToTimeseries(rows).Success?
    ensures DatasetToTimeseries(rows).value.days == set x | x in rows :: x.date
  {
    TimeseriesSucceedsIff(rows);
    var w := DatasetToTimeseries(rows).value;
    TimeseriesCellFromRow(rows);
    forall d | d in w.days ensures exists x :: x in rows && x.date == d {
      var j :| 0 <= j < |w.series| && d in w.series[j];
    }
    forall x | x in rows ensures x.date in w.days {
      TimeseriesHoldsEveryRow(rows, FullPrice, x);
    }
  }

  /** The printed labels of the table's columns, in column order. */
  function Labels(w: Wide): (ls: seq<string>)
    ensures |ls| == |w.columns|
    ensures forall i :: 0 <= i < |ls| ==> ls[i] == ColumnName(w.columns[i])
    ensures Distinct(w.columns) ==> Distinct(ls)
  {
    var ls := seq(|w.columns|, i requires 0 <= i < |w.columns| => ColumnName(w.columns[i]));
    assert Distinct(w.columns) ==> Distinct(ls) by {
      forall i, j | 0 <= i < j < |ls| && ColumnName(w.columns[i]) == ColumnName(w.columns[j])
        ensures w.columns[i] == w.columns[j]
      {
        ColumnNameInjective(w.columns[i], w.columns[j]);
      }
    }
    ls
  }

  /** Each label of the table's header reads back as its column. */
  lemma LabelsRoundTrip(w: Wide, i: nat)
    requires i < |w.columns|
    ensures ParseColumnName(Labels(w)[i]) == Some(w.columns[i])
  {
    ColumnNameRoundTrip(w.columns[i]);
  }
}

=== FILE: records.dfy ===
/** The records that flow through the pipeline: purchase transactions,
    aggregation keys, and the rows of the long aggregated table.
    Calendar dates are integer day ordinals. */
module Records {
  import opened Wrappers
  import opened Sequences

  /** One purchase line (data_preprocessing.py: the cleaned table). The three
      entity ids are nullable; the prices are cast to integers upstream. */
  datatype Txn = Txn(
    date: int,
    market: Option<int>,
    category: Option<int>,
    vendor: Option<int>,
    fullPrice: int,
    fullDiscountPrice: int,
    quantity: int)

  /** The three grouping columns, in the order of `agg_columns`. */
  datatype Dim = MarketDim | CategoryDim | VendorDim

  const AggDims: seq<Dim> := [MarketDim, CategoryDim, VendorDim]

  function IdOf(t: Txn, d: Dim): Option<int> {
    match d
    case MarketDim => t.market
    case CategoryDim => t.category
    case VendorDim => t.vendor
  }

  /** An aggregation key: at most one entity position is set; `Total` is the
      grand total over every transaction of a day. */
  datatype Key = Total | Market(id: int) | Category(id: int) | Vendor(id: int)

  function KeyFor(d: Dim, id: int): (k: Key)
    ensures !k.Total? && k.id == id
  {
    match d
    case MarketDim => Market(id)
    case CategoryDim => Category(id)
    case VendorDim => Vendor(id)
  }

  /** The `market_id` cell of a row with key `k` (null unless grouped by market). */
  function MarketField(k: Key): Option<int> {
    if k.Market? then Some(k.id) else None
  }

  function CategoryField(k: Key): Option<int> {
    if k.Category? then Some(k.id) else None
  }

  function VendorField(k: Key): Option<int> {
    if k.Vendor? then Some(k.id) else None
  }

  /** Whether transaction `t` falls in the group that key `k` describes. */
  predicate KeyMatches(k: Key, t: Txn) {
    match k
    case Total => true
    case Market(id) => t.market == Some(id)
    case Category(id) => t.category == Some(id)
    case Vendor(id) => t.vendor == Some(id)
  }

  /** The two forecast measures, in the order `create_column_names` visits them. */
  datatype Measure = FullDiscountPrice | FullPrice

  const Measures: seq<Measure> := [FullDiscountPrice, FullPrice]

  /** A row of the long aggregated table after renaming and dropping: the
      day, the key cells, and the per-key sums (null when unset). */
  datatype AggRow = AggRow(
    date: int,
    key: Key,
    fullDiscountPrice: Option<int>,
    fullPrice: Option<int>)

  function MeasureOf(r: AggRow, m: Measure): Option<int> {
    match m
    case FullDiscountPrice => r.fullDiscountPrice
    case FullPrice => r.fullPrice
  }

  /** The allow-lists of `bound_dict`: the only ids the aggregator groups on. */
  const MarketIds: seq<int> := [
    104448, 103297, 100610, 104705, 104837, 106629, 106376, 104335, 103952, 106130,
    276, 103961, 105498, 105502, 105375, 105503, 299, 107313, 310, 104374,
    314, 100031, 104768, 106563, 102725, 103244, 104524, 105036, 105935, 106703,
    105701, 105702, 103529, 105071, 103664, 105072, 105970, 104572]

  const VendorIds: seq<int> := [
    1799, 264, 3847, 139, 103436, 17, 1937, 19, 4370, 27,
    28, 30, 31, 34, 36, 38, 104106, 44, 301, 49,
    59, 3134, 104008, 330, 1740, 2763, 599, 728, 1624, 2648,
    2654, 735, 3806, 97, 610, 4321, 1638, 1639, 3686, 1257,
    1645, 2291, 104573]

  const CategoryIds: seq<int> := [
    128, 6147, 6150, 8, 9, 140, 13, 142, 16, 6161,
    146, 149, 6166, 24, 25, 27, 6171, 31, 32, 161,
    39, 43, 49, 6066, 51, 6068, 6195, 56, 58, 187,
    60, 61, 6207, 194, 67, 80, 208, 217, 6123, 112,
    113, 115, 116, 117, 240, 247]

  function AllowList(d: Dim): seq<int> {
    match d
    case MarketDim => MarketIds
    case CategoryDim => CategoryIds
    case VendorDim => VendorIds
  }

  /** The default `n_target_values` of `add_nans`. */
  const DefaultTargetValues: nat := 128

  function KeysOf(d: Dim, ids: seq<int>): (ks: seq<Key>)
    ensures |ks| == |ids|
    ensures forall i :: 0 <= i < |ids| ==> ks[i] == KeyFor(d, ids[i])
  {
    seq(|ids|, i requires 0 <= i < |ids| => KeyFor(d, ids[i]))
  }

  /** The keys of one day's aggregate rows for the given allow-lists, in
      output order: the market block, the category block, the vendor block,
      then the grand total. */
  function KeyLayout(markets: seq<int>, categories: seq<int>, vendors: seq<int>): seq<Key> {
    KeysOf(MarketDim, markets) + KeysOf(CategoryDim, categories)
      + KeysOf(VendorDim, vendors) + [Total]
  }

  /** The day layout for the configured allow-lists. */
  function DayKeys(): seq<Key> {
    KeyLayout(MarketIds, CategoryIds, VendorIds)
  }

  /** Block structure of a day layout: positions below |markets| hold the
      market keys, then categories, then vendors, and the last one the total. */
  lemma KeyLayoutBlocks(markets: seq<int>, categories: seq<int>, vendors: seq<int>)
    ensures var ks := KeyLayout(markets, categories, vendors);
      && |ks| == |markets| + |categories| + |vendors| + 1
      && (forall i :: 0 <= i < |markets| ==> ks[i] == Market(markets[i]))
      && (forall i :: 0 <= i < |categories| ==>
            ks[|markets| + i] == Category(categories[i]))
      && (forall i :: 0 <= i < |vendors| ==>
            ks[|markets| + |categories| + i] == Vendor(vendors[i]))
      && ks[|ks| - 1] == Total
  {
  }

  /** With duplicate-free allow-lists, no key occurs twice in a day layout,
      so a day has exactly one row per allow-listed id and one total row. */
  lemma KeyLayoutDistinct(markets: seq<int>, categories: seq<int>, vendors: seq<int>)
    requires Distinct(markets) && Distinct(categories) && Distinct(vendors)
    ensures Distinct(KeyLayout(markets, categories, vendors))
  {
    var ks := KeyLayout(markets, categories, vendors);
    KeyLayoutBlocks(markets, categories, vendors);
    var a, b := |markets|, |markets| + |categories|;
    forall i, j | 0 <= i < j < |ks| ensures ks[i] != ks[j] {
      if j < a {
        assert markets[i] != markets[j];
      } else if a <= i && j < b {
        assert categories[i - a] != categories[j - a];
      } else if b <= i && j < |ks| - 1 {
        assert vendors[i - b] != vendors[j - b];
      }
    }
  }

  /** One day yields 38 + 46 + 43 + 1 rows: the default number of target
      values per day. */
  lemma DayKeysShape()
    ensures |MarketIds| == 38 && |CategoryIds| == 46 && |VendorIds| == 43
    ensures |DayKeys()| == DefaultTargetValues
    ensures DayKeys()[DefaultTargetValues - 1] == Total
  {
  }
}

=== FILE: sequences.dfy ===
/** Sequence helpers with the semantics the pipeline relies on: pandas'
    first-appearance `unique()`, dropping nulls, and integer sums. */
module Sequences {
  import opened Wrappers

  /** No element occurs twice. */
  predicate Distinct<T(==)>(s: seq<T>) {
    forall i, j :: 0 <= i < j < |s| ==> s[i] != s[j]
  }

  /** Position of the first occurrence of `x` in `s`. */
  function FirstIndex<T(==)>(s: seq<T>, x: T): (k: nat)
    requires x in s
    ensures k < |s| && s[k] == x
    ensures forall i :: 0 <= i < k ==> s[i] != x
  {
    if s[0] == x then 0 else 1 + FirstIndex(s[1..], x)
  }

  /** The distinct elements of `s` in order of first appearance. */
  function Unique<T(==,!new)>(s: seq<T>): (u: seq<T>)
    ensures Distinct(u)
    ensures forall x :: x in u <==> x in s
    ensures |u| <= |s|
  {
    if |s| == 0 then []
    else
      var u0 := Unique(s[..|s| - 1]);
      var x := s[|s| - 1];
      if x in u0 then u0 else u0 + [x]
  }

  /** Removing the last element of `s` keeps the first index of any element
      that already occurs earlier. */
  lemma FirstIndexPrefix<T>(s: seq<T>, x: T)
    requires |s| > 0 && x in s[..|s| - 1]
    ensures FirstIndex(s, x) == FirstIndex(s[..|s| - 1], x)
  {
    var p := s[..|s| - 1];
    var k := FirstIndex(p, x);
    assert s[k] == x;
    var k' := FirstIndex(s, x);
    assert k' <= k;
    assert p[k'] == x;
  }

  /** `unique()` lists values in the order of their first appearance. */
  lemma {:induction false} UniqueFirstAppearanceOrder<T(!new)>(s: seq<T>, i: nat, j: nat)
    requires i < j < |Unique(s)|
    ensures FirstIndex(s, Unique(s)[i]) < FirstIndex(s, Unique(s)[j])
  {
    var p := s[..|s| - 1];
    var u0 := Unique(p);
    var x := s[|s| - 1];
    var u := Unique(s);
    if j < |u0| {
      assert u[i] == u0[i] && u[j] == u0[j];
      assert u0[i] in p && u0[j] in p;
      UniqueFirstAppearanceOrder(p, i, j);
      FirstIndexPrefix(s, u0[i]);
      FirstIndexPrefix(s, u0[j]);
    } else {
      assert x !in u0 && u == u0 + [x] && u[j] == x;
      assert x !in p;
      assert FirstIndex(s, x) == |s| - 1;
      assert u[i] in p;
      FirstIndexPrefix(s, u[i]);
    }
  }

  /** A duplicate-free sequence is its own `unique()`. */
  lemma {:induction false} UniqueOfDistinct<T(!new)>(s: seq<T>)
    requires Distinct(s)
    ensures Unique(s) == s
  {
    if |s| > 0 {
      var p := s[..|s| - 1];
      UniqueOfDistinct(p);
      assert s[|s| - 1] !in p;
      assert s == p + [s[|s| - 1]];
    }
  }

  /** The values of the set positions of `s`, in order (nulls dropped). */
  function Values<T(!new)>(s: seq<Option<T>>): (r: seq<T>)
    ensures forall x :: x in r <==> Some(x) in s
    ensures |r| <= |s|
  {
    if |s| == 0 then []
    else (if s[0].Some? then [s[0].value] else []) + Values(s[1..])
  }

  /** Dropping nulls from a duplicate-free sequence keeps it duplicate-free. */
  lemma {:induction false} ValuesDistinct<T(!new)>(s: seq<Option<T>>)
    requires Distinct(s)
    ensures Distinct(Values(s))
  {
    if |s| > 0 {
      ValuesDistinct(s[1..]);
      if s[0].Some? {
        assert s[0] !in s[1..];
        assert s[0].value !in Values(s[1..]);
      }
    }
  }

  /** Past a different head, the first index is one more than in the tail. */
  lemma FirstIndexTail<T>(s: seq<T>, x: T)
    requires |s| > 0 && x in s[1..] && s[0] != x
    ensures x in s && FirstIndex(s, x) == 1 + FirstIndex(s[1..], x)
  {
  }

  /** Dropping nulls from a duplicate-free sequence keeps the order of the
      values that remain. */
  lemma {:induction false} ValuesOrder<T(!new)>(s: seq<Option<T>>, i: nat, j: nat)
    requires Distinct(s) && i < j < |Values(s)|
    ensures Some(Values(s)[i]) in s && Some(Values(s)[j]) in s
    ensures FirstIndex(s, Some(Values(s)[i])) < FirstIndex(s, Some(Values(s)[j]))
  {
    var t := s[1..];
    var k := if s[0].Some? then 1 else 0;
    var i', j' := i - k, j - k;
    var x, y := Some(Values(s)[i]), Some(Values(s)[j]);
    assert y == Some(Values(t)[j']) && (i' >= 0 ==> x == Some(Values(t)[i'])) && (i' < 0 ==> x == s[0]) by {
      assert Values(s) == (if s[0].Some? then [s[0].value] else []) + Values(t);
    }
    assert s[0] !in t && Distinct(t);
    assert y in t;
    FirstIndexTail(s, y);
    if i' >= 0 {
      ValuesOrder(t, i', j');
      FirstIndexTail(s, x);
    }
  }

  /** Integer sum of `f` over `s`, accumulated left to right. */
  function SumOf<T>(s: seq<T>, f: T -> int): int {
    if |s| == 0 then 0 else SumOf(s[..|s| - 1], f) + f(s[|s| - 1])
  }
}

=== FILE: sorting.dfy ===
/** Sorting by a total preorder, and Python's ordering of strings. */
module Sorting {

  /** `le` is total and transitive: what a sort key needs. */
  ghost predicate TotalPreorder<T(!new)>(le: (T, T) -> bool) {
    && (forall x, y :: le(x, y) || le(y, x))
    && (forall x, y, z :: le(x, y) && le(y, z) ==> le(x, z))
  }

  predicate SortedBy<T>(le: (T, T) -> bool, s: seq<T>) {
    forall i, j :: 0 <= i < j < |s| ==> le(s[i], s[j])
  }

  /** Inserts `x` in front of the first element it is not above. */
  function Insert<T(!new)>(le: (T, T) -> bool, x: T, s: seq<T>): (r: seq<T>)
    requires TotalPreorder(le) && SortedBy(le, s)
    ensures SortedBy(le, r)
    ensures multiset(r) == multiset(s) + multiset{x}
    ensures |r| == |s| + 1
  {
    if |s| == 0 then [x]
    else if le(x, s[0]) then [x] + s
    else
      var t := Insert(le, x, s[1..]);
      assert s == [s[0]] + s[1..];
      assert forall k :: 0 <= k < |t| ==> t[k] in multiset(s[1..]) + multiset{x};
      assert forall k :: 0 <= k < |t| ==> le(s[0], t[k]);
      [s[0]] + t
  }

  /** Insertion sort: a sorted permutation of `s`. */
  function InsertionSort<T(!new)>(le: (T, T) -> bool, s: seq<T>): (r: seq<T>)
    requires TotalPreorder(le)
    ensures SortedBy(le, r)
    ensures multiset(r) == multiset(s)
    ensures |r| == |s|
  {
    if |s| == 0 then []
    else
      assert s == [s[0]] + s[1..];
      Insert(le, s[0], InsertionSort(le, s[1..]))
  }

  /** Python's `<=` on `str`: lexicographic by code point, a proper prefix first. */
  predicate StrLe(a: string, b: string) {
    if |a| == 0 then true
    else if |b| == 0 then false
    else if a[0] == b[0] then StrLe(a[1..], b[1..])
    else a[0] < b[0]
  }

  lemma {:induction false} StrLeTotal(a: string, b: string)
    ensures StrLe(a, b) || StrLe(b, a)
  {
    if |a| > 0 && |b| > 0 && a[0] == b[0] {
      StrLeTotal(a[1..], b[1..]);
    }
  }

  lemma {:induction false} StrLeTransitive(a: string, b: string, c: string)
    requires StrLe(a, b) && StrLe(b, c)
    ensures StrLe(a, c)
  {
    if |a| > 0 && |b| > 0 && |c| > 0 && a[0] == b[0] && b[0] == c[0] {
      StrLeTransitive(a[1..], b[1..], c[1..]);
    }
  }

  lemma {:induction false} StrLeAntisymmetric(a: string, b: string)
    requires StrLe(a, b) && StrLe(b, a)
    ensures a == b
  {
    if |a| > 0 && |b| > 0 {
      StrLeAntisymmetric(a[1..], b[1..]);
      assert a == [a[0]] + a[1..] && b == [b[0]] + b[1..];
    }
  }

  /** The head of a sorted list is at or below every element of it. */
  lemma SortedHeadLe(a: seq<string>, x: string)
    requires SortedBy(StrLe, a) && x in a
    ensures StrLe(a[0], x)
  {
    var k :| 0 <= k < |a| && a[k] == x;
    if k == 0 {
      StrLeTotal(x, x);
    }
  }

  /** Removing equal heads from lists with equal elements leaves equal elements. */
  lemma TailMultisets(a: seq<string>, b: seq<string>)
    requires |a| > 0 && |b| > 0 && a[0] == b[0] && multiset(a) == multiset(b)
    ensures multiset(a[1..]) == multiset(b[1..])
  {
    assert a == [a[0]] + a[1..] && b == [b[0]] + b[1..];
    forall y ensures multiset(a[1..])[y] == multiset(b[1..])[y] {
      assert multiset(a)[y] == multiset(b)[y];
    }
  }

  /** Two lists of strings sorted by `StrLe` with the same elements are equal:
      the sorted order of a list of names is unique. */
  lemma {:induction false} StrSortedUnique(a: seq<string>, b: seq<string>)
    requires SortedBy(StrLe, a) && SortedBy(StrLe, b)
    requires multiset(a) == multiset(b)
    ensures a == b
  {
    if |a| == 0 {
      assert |b| == |multiset(b)|;
    } else {
      assert a[0] in multiset(b) && b[0] in multiset(a);
      SortedHeadLe(b, a[0]);
      SortedHeadLe(a, b[0]);
      StrLeAntisymmetric(a[0], b[0]);
      TailMultisets(a, b);
      StrSortedUnique(a[1..], b[1..]);
    }
  }

  /** String order is a total order, so sorting names is well defined. */
  lemma StrLeIsTotalPreorder()
    ensures TotalPreorder(StrLe)
  {
    forall x, y ensures StrLe(x, y) || StrLe(y, x) {
      StrLeTotal(x, y);
    }
    forall x, y, z | StrLe(x, y) && StrLe(y, z) ensures StrLe(x, z) {
      StrLeTransitive(x, y, z);
    }
  }
}

=== FILE: wrappers.dfy ===
/** Failure-compatible wrappers shared by every stage of the pipeline. */
module Wrappers {

  /** A value that may be unset: a null cell, a NaN key field, an absent group. */
  datatype Option<+T> = None | Some(value: T) {

    /** The wrapped value, or `default` when unset (pandas' `fillna`). */
    function GetOr(default: T): T {
      match this
      case Some(v) => v
      case None => default
    }
  }

  /** The outcome of a step that can raise in the source. */
  datatype Result<+R, +E> = Success(value: R) | Failure(error: E) {

    predicate IsFailure() {
      Failure?
    }

    function PropagateFailure<U>(): Result<U, E>
      requires Failure?
    {
      Failure(error)
    }

    function Extract(): R
      requires Success?
    {
      value
    }
  }
}
